=== FILE: README.md ===
# Image hosting service core, in Dafny

This project models the core of a small image-hosting service written in
JavaScript (Express, MySQL through mysql2, S3 through aws-sdk). It covers
four parts:

- **The upload middleware** (`calculateFileHash`). It digests the uploaded
  bytes, then repairs the file name. The repair follows a client hint
  (`encodingMethod`): with `latin1` it tries one branch; otherwise it runs a
  chain of up to six decoders. The chain keeps the first result that differs
  from the raw name. If nothing changed, it falls back to a client-declared
  name.
- **Storage-key derivation** (`generateUniqueFilename`). The key has the form
  `<year>/<MM>/<hash[0..8)>_<HHmmss>.<ext>`.
- **The `images` metadata table** (`ImageModel`). It covers live lookups,
  insert, the filtered, sorted and paged listing, soft and hard deletes
  (single and batch), and the read-side name repair (`fixEncoding`).
- **The controller decisions**. Upload with content de-duplication, listing
  with parameter validation, delete, lookup by hash, and batch delete with
  its report.

One Dafny module per concern, one file each:

- `wrappers.dfy`: `Option` and `Result`.
- `seqs.dfy`: `Filter` and its laws.
- `text.dfy`: decimal digits, padding, JavaScript truthiness, substring
  search, first and last index of a character.
- `platform.dfy`: bytes, one wall-clock reading (`Clock`), and Node's string
  codecs as opaque parameters.
- `s3_service.dfy`: key derivation and its parser.
- `image_model.dfy`: the table.
- `http.dfy`: the JSON responses.
- `upload.dfy`: the middleware.
- `controller.dfy`: the handlers.

Handlers are pure functions. Each mutating handler takes the table plus
whatever it borrows from outside, and returns the response, the new table
and the list of S3 uploads it issued. The two read-only handlers
(`GetImageList`, `GetImageByHash`) return only the response. What it borrows:

- the codecs;
- the clock reading;
- an S3 `putObject` that returns the object URL, or `None` when it throws;
- a base64 encoder.

The batch delete is a method, because the source loops over the ids.

Three behaviours of the store are modelled explicitly:

- **Affected rows.** mysql2 sets `CLIENT_FOUND_ROWS` by default, so an
  `UPDATE` reports the rows it *matched*. Soft-deleting an already-deleted
  row still reports success. A batch counts distinct matched rows.
- **`updated_at`.** The `ON UPDATE` column changes only when the row actually
  changes.
- **Sort ties.** `ORDER BY upload_time DESC` is modelled as a stable sort, so
  rows with equal times keep table order.

One consequence of the key format is proved rather than assumed. The source
formats the day of month but leaves it out of the key. So re-uploading a
deleted file in the same month, at the same time of day but on another day,
reproduces the deleted row's key. That upload puts the object to S3 and then
fails on the table's UNIQUE(filename) with 500
(`ImageController.ReuploadOnAnotherDayCollides`).

## Model

| member | source | states |
|---|---|---|
| Text.DigitsRoundTrip | src/utils/s3Service.js:21 | reading the decimal rendering `String(year)` back as a number gives the year |
| Text.Pad2Digits | src/utils/s3Service.js:22-26 | `padStart(2, '0')` of a number below 100 is exactly its tens digit then its units digit |
| Text.OrDefault | src/middleware/upload.js:93-94 | `a \|\| b` on an optional string yields the value when it is non-empty, otherwise the default |
| S3Service.Extension | src/utils/s3Service.js:29 | `split('.').pop()` is the text after the last `.`; the whole name when there is no `.`; never contains a `.`; always a suffix of the name |
| S3Service.ExtensionAfterDot | src/utils/s3Service.js:29-35 | appending `.` plus a dot-free extension to any stem makes that extension the extension again |
| S3Service.HashPrefix | src/utils/s3Service.js:32 | `substring(0, 8)` is a prefix of the hash of length min(8, length) |
| S3Service.GenerateUniqueFilename | src/utils/s3Service.js:19-36 | the generated key keeps the original name's extension |
| S3Service.ComponentsShape | src/utils/s3Service.js:22-26 | the month is 1-based and written as two digits; the time is six digits, two each for hours, minutes and seconds |
| S3Service.KeyRoundTrip | src/utils/s3Service.js:19-36 | parsing a generated key gives back the year, month, hash prefix, time and extension it was built from |
| S3Service.KeyIgnoresDay | src/utils/s3Service.js:23-35 | the day of month is formatted but never reaches the key: readings that differ only in the day give the same key |
| ImageModel.FixEncoding | src/models/ImageModel.js:4-30 | empty text and text that survives a UTF-8 round trip are kept; otherwise an acceptable (non-empty, no U+FFFD) latin1 reinterpretation is returned, failing that an acceptable binary one, failing both the text itself |
| ImageModel.FixObjectEncoding | src/models/ImageModel.js:33-43 | only `original_name` and `filename` change, each to its repaired form; every other column is copied |
| ImageModel.FixArrayEncoding | src/models/ImageModel.js:46-49 | the row repair applied to each row, same length and order |
| ImageModel.FirstLive | src/models/ImageModel.js:53-71 | the index of the first live row the lookup selects, or none exactly when no live row matches |
| ImageModel.FindLive | src/models/ImageModel.js:53-71 | `findByHash`/`findById`/`findByFilename` return null exactly when no live row matches; otherwise the first live match, repaired and never deleted |
| ImageModel.Create | src/models/ImageModel.js:74-82 | the insert fails exactly when some row (deleted or not) already has the filename or the AUTO_INCREMENT counter has passed the largest `int` (2147483647); otherwise it appends one live row stamped `now` under a fresh id, keeping the schema invariant |
| ImageModel.CreateIgnoresHash | src/models/ImageModel.js:74-82 | the store accepts a second live row for a digest that already has one: only the filename is unique |
| ImageModel.InsertNewestFirst | src/models/ImageModel.js:113 | inserting into a newest-first sequence keeps it newest-first and adds exactly that row |
| ImageModel.SortNewestFirst | src/models/ImageModel.js:113 | the result is a permutation of the input, ordered newest first |
| ImageModel.Listing | src/models/ImageModel.js:85-115 | the listed rows are exactly the live rows in the month and matching the keyword (with multiplicity), newest first |
| ImageModel.PageOf | src/models/ImageModel.js:110-116 | a page holds at most `pageSize` rows, all taken from the listing |
| ImageModel.GetList | src/models/ImageModel.js:85-127 | `data` is the requested page of the listing, repaired, never holding a deleted row; `total` counts every listed row; page and size are echoed; `totalPages` is the ceiling of total over size |
| ImageModel.TotalPagesBounds | src/models/ImageModel.js:124 | `ceil(total / pageSize)` pages hold every row; the last of them starts before the end; zero pages exactly when nothing is listed |
| ImageModel.PagesArePrefix | src/models/ImageModel.js:110-116 | the first k pages, laid end to end, are exactly the first k·pageSize listed rows: pages neither overlap nor skip |
| ImageModel.PagesCoverListing | src/models/ImageModel.js:105-124 | walking pages 1..totalPages visits every listed row exactly once, in display order |
| ImageModel.PageLength | src/models/ImageModel.js:110-124 | every page but the last is full; the last holds the rest; pages past `totalPages` are empty |
| ImageModel.MarkIn | src/models/ImageModel.js:131 | `SET is_deleted = 1 WHERE id IN …` flags each matching row and changes at most its flag and update time; a live matching row gets `updated_at = now`, an already-deleted one stays exactly as it was; other rows are untouched |
| ImageModel.SoftDelete | src/models/ImageModel.js:130-134 | reports true exactly when some row has the id (even one already deleted); flags those rows, moving `updated_at` to `now` only on a row that was live; leaves every other row as it was |
| ImageModel.SoftDeleteHides | src/models/ImageModel.js:130-134 | after a soft delete no live lookup finds the id, yet the row is still in the table |
| ImageModel.SoftDeletePreserves | src/models/ImageModel.js:130-134 | a soft delete keeps the schema invariant and live-digest uniqueness |
| ImageModel.BatchSoftDelete | src/models/ImageModel.js:144-151 | an empty list changes nothing and reports 0; otherwise every listed row is flagged with only its flag and update time changed, the time moving to `now` only on a row that was live, others untouched, and with unique ids the count is the number of distinct listed ids present |
| ImageModel.CountMatchedUniqueIds | src/models/ImageModel.js:148-150 | with unique ids, `WHERE id IN s` matches one row per id of `s` the table holds |
| ImageModel.BatchSoftDeletePreserves | src/models/ImageModel.js:144-151 | a batch soft delete keeps the schema invariant and live-digest uniqueness |
| ImageModel.MarkInPreserves | src/models/ImageModel.js:144-151 | flagging rows keeps ids, names and digests in place and only turns live rows into deleted ones, so both invariants survive |
| ImageModel.HardDelete | src/models/ImageModel.js:137-141 | removes exactly the rows with the id (as a multiset) and reports whether any was removed |
| ImageModel.BatchHardDelete | src/models/ImageModel.js:154-161 | an empty list changes nothing; otherwise removes exactly the listed rows, and removed plus remaining equals the original count |
| ImageModel.GetSoftDeleted | src/models/ImageModel.js:164-167 | returns only deleted rows, one per flagged row, and every flagged row appears repaired |
| UploadMiddleware.Base64GuardMatchesPattern | src/middleware/upload.js:189 | the guard holds exactly when the name is base64 characters followed by at most two `=` |
| UploadMiddleware.FirstDiffering | src/middleware/upload.js:133-196 | the first candidate that differs from the raw name; none exactly when every candidate leaves the name unchanged |
| UploadMiddleware.ChainIsFirstDiffering | src/middleware/upload.js:133-196 | the six nested `if (fixedName === originalname)` attempts end on the first decoder result that differs from the raw name, or on the raw name |
| UploadMiddleware.NormalizeName | src/middleware/upload.js:103-203 | without the `latin1` hint the name is the first differing candidate, else the declared name; an unchanged result means the declared name was the raw name |
| UploadMiddleware.CalculateFileHash | src/middleware/upload.js:79-216 | 400 exactly when no file arrived; otherwise passes on the same request with the digest of the bytes stored and only the file name replaced by its repaired form |
| UploadMiddleware.EncodingMethod | src/middleware/upload.js:93-105 | an absent or empty hint reads as `unknown`; only the exact value `latin1` selects the latin1 branch |
| UploadMiddleware.Latin1HintOutcome | src/middleware/upload.js:105-131 | with the `latin1` hint the name is the latin1→utf8 reinterpretation; URL then binary decoding are used only when it throws; an unchanged result gives way to the declared name |
| UploadMiddleware.HexDecoderGuarded | src/middleware/upload.js:172-183 | the hex decoder is never consulted for a name that is not all hex digits |
| UploadMiddleware.Base64DecoderGuarded | src/middleware/upload.js:185-196 | the base64 decoder is never consulted for a name outside the base64 pattern |
| UploadMiddleware.DeclaredNameFallback | src/middleware/upload.js:199-203 | when no decoder changes the name, the result is the declared name |
| ImageController.Preview | src/controllers/imageController.js:63-66 | a preview is attached exactly when the file is smaller than 1 MiB |
| ImageController.UploadImage | src/controllers/imageController.js:18-103 | a live row with the digest gives 200 with that row, the current name and `isDuplicate`, and no write; otherwise exactly one S3 put under the generated key, then 201 with one new live row appended exactly when the put succeeded, the key was unused and the id counter was within `int`, else 500 with the table unchanged; the 201 body carries the generated key, the repaired name, the put's URL, the size, the MIME type and the preview exactly when below 1 MiB |
| ImageController.HandleUpload | src/routes/imageRoutes.js:67-72 | a request without a file is refused with 400 before anything is written; otherwise the controller sees the file under its repaired name with the digest of its bytes |
| ImageController.UploadPreservesInvariants | src/controllers/imageController.js:36-77 | an upload keeps the schema invariant and never creates a second live row for a digest |
| ImageController.NewLiveHashKeepsUnique | src/controllers/imageController.js:36-77 | appending a live row whose digest no live row has keeps live digests unique |
| ImageController.FindAppendedHash | src/controllers/imageController.js:36-37 | after such an append, the lookup by that digest answers with the appended row |
| ImageController.SecondUploadIsDuplicate | src/controllers/imageController.js:36-54 | once a file is stored, a second upload with the same digest answers 200 with the stored id, flagged duplicate, with no S3 put and no table change |
| ImageController.SameContentStoredOnce | src/middleware/upload.js:89-90 | at the route level, two requests carrying the same bytes store the content once: the second is a duplicate of the first |
| ImageController.KeyCollisionFailsAfterPut | src/controllers/imageController.js:56-77 | when the generated key is already some row's filename (even a deleted row's), the object is still put to S3 and the request then fails with 500, table unchanged |
| ImageController.ReuploadOnAnotherDayCollides | src/utils/s3Service.js:19-35 | deleting a file and uploading it again in the same month at the same time of day, on another day, reproduces the deleted row's key and fails after the put |
| ImageController.GetImageList | src/controllers/imageController.js:106-145 | 400 exactly when the page is NaN or below 1, or the page size is NaN or outside 1..100 (defaults 1 and 10); otherwise 200 with the model's page |
| ImageController.DeleteImage | src/controllers/imageController.js:148-183 | 400 without an id; 404 and no change when no live row has it; otherwise 200 and the row soft-deleted |
| ImageController.DeleteHidesRow | src/controllers/imageController.js:159-169 | after a successful delete the id is no longer found live, the row remains, and the schema invariant holds |
| ImageController.GetImageByHash | src/controllers/imageController.js:186-219 | 400 for an empty hash; 404 when no live row has it; otherwise 200 with the first live row of that digest, repaired |
| ImageController.KeptIds | src/controllers/imageController.js:234-240 | the distinct ids the lookup loop keeps are exactly the listed ids that are live, and all are in the table |
| ImageController.FoundIffLive | src/controllers/imageController.js:236-237 | `findById` finds an id exactly when a live row has it |
| ImageController.CollectLive | src/controllers/imageController.js:234-240 | the loop keeps every listed id that is live, in order and with repetitions |
| ImageController.BatchOutcome | src/controllers/imageController.js:249-261 | soft-deleting the kept ids flags exactly the live listed rows, changing only their flag and update time, leaves the rest, and with unique ids counts the distinct live listed ids |
| ImageController.BatchDeleteImages | src/controllers/imageController.js:222-261 | 400 for a missing, non-array or empty list; 404 and no change when no listed id is live, 200 exactly when some listed id is live; then requested = found + notFound, found counts the live listed entries with repetition, deleted counts the distinct ones, and exactly the live listed rows are flagged, with only their flag and update time changed |
| ImageController.RepeatedIdOverCountsFound | src/controllers/imageController.js:249-259 | a live id listed twice makes `found` exceed `deleted` in the report |

## Left out

- SHA-256 is not modelled. The digest is a parameter of the middleware, so nothing here depends on its collision resistance.
- Node's `Buffer` and `decodeURIComponent` conversions are not modelled. They are opaque parameters (`Codecs`), with `None` standing for a throw.
- The S3 client is network I/O and is not modelled. This covers `uploadFile`, `deleteFile`, `batchDeleteFiles`, `fileExists` and `getFileMetadata` in `src/utils/s3Service.js`. Only the put issued by an upload is recorded, with a parameter for its outcome.
- The MySQL pool, the Express app, Swagger, multer's storage, MIME filter and limits, and `handleUploadError` are framework configuration and are not modelled. `src/models/database.js`, `index.js`, `src/config/swagger.js` and the DDL scripts are not part of this model, except that the schema's PRIMARY KEY and UNIQUE(filename) appear as the `ImageModel.Valid` invariant.
- Concurrency is not modelled. Handlers run one at a time against one table, so the race between two simultaneous uploads of the same content is out of scope.
- Only the 500 answers caused by a failed S3 put or a rejected insert are modelled. Other thrown errors (database unreachable, `req.body` missing) are not.
- Logging (`console.log` of names and the hint) is not modelled.
- `ImageController.fixEncoding` is not modelled, because no handler calls it.
- ImageModel.Listing: `LIKE '%kw%'` is modelled as exact substring search. The `utf8mb4_0900_ai_ci` collation's case and accent folding and the `%`/`_` wildcards inside the keyword are not modelled.
- ImageModel.Create: the table's collation (`utf8mb4_0900_ai_ci`) also governs UNIQUE(filename), so MySQL rejects a filename that differs from a stored one only in case or accents. The model, and the `ImageModel.Valid` invariant, compare filenames by exact equality, so such an insert succeeds here.
- ImageModel.FindLive: `file_hash = ?` and `filename = ?` compare under the same case- and accent-insensitive collation. The model compares the strings exactly, so a lookup that differs from the stored value only in case or accents finds nothing here.
- ImageController.UploadImage: "the key is unused" means no stored filename is exactly equal. A generated key that differs from a stored one only in case (the extension's case, say) answers 201 here, where MySQL's collated UNIQUE key gives 500.
- ImageController.GetImageByHash: the digest is matched exactly, so an upper-case spelling of a stored (lower-case hex) digest answers 404 here, where the collated `file_hash = ?` answers 200 with the row. The ensures `row.fileHash == hash` holds of the model only.
- ImageModel.SortNewestFirst: SQL leaves the order of equal `upload_time` values unspecified. The model fixes one (table order), so it states a particular tie-break that the database does not promise.
- ImageModel.FindLive: the lookups take the first row of a `SELECT` that has no `ORDER BY`, so SQL does not promise which matching row that is. The model returns the first live match in table order, which only matters when two live rows share a digest.
- Column length limits (`varchar(255)` and similar) and the `bigint` range of `file_size` are not modelled. Over-long values are accepted.
- AUTO_INCREMENT is modelled as `nextId`, bounded by the `int` range of `id`. A failed insert does not consume an id here; InnoDB may skip one, which is not modelled.
- ImageModel.GetList: `page`, `pageSize` and `offset = (page - 1) * pageSize` are JavaScript doubles in the source, and the offset reaches MySQL as `parseInt(offset)`. The model computes the offset exactly. Above 2^53 the double rounds, and from 1e21 on `parseInt` reads the exponent form (`"1e+21"` gives 1), so a valid request such as page 10^19 at size 100 gets an early page of the listing from the source but an empty page here.
- ImageModel.PagesArePrefix: holds of the exact offset. It is not promised for pages whose double offset reaches 1e21, which the source maps to an early offset.
- ImageModel.PageLength: "pages past `totalPages` are empty" holds of the exact offset only; in the source a page whose double offset reaches 1e21 is read from a small offset (`parseInt` keeps only the leading digits of the exponent form) and can be non-empty.
- ImageController.GetImageList: inherits the `GetList` gap: for valid parameters with (page - 1)·pageSize of 1e21 or more, the source answers 200 with an early page and the model with an empty one.
- ImageModel.GetList: stated only for `page >= 1` and `pageSize >= 1`, which is all the controller ever passes. The model's own defaults and the behaviour for other arguments are not modelled.
- ImageController.DeleteImage: the `id` route parameter is taken as already converted to an integer, or absent. MySQL's string-to-integer cast of non-numeric ids is not modelled.
- ImageController.UploadImage: the `uploadTime` of the 201 answer is a second `new Date()` in the source. It is modelled as the same clock reading as the row's `NOW()`; the timezone and millisecond difference between the JavaScript and MySQL clocks is not modelled.
- ImageController.BatchDeleteImages: the number of rows deleted is stated only when the table's ids are unique. The schema guarantees that (PRIMARY KEY), but the method's contract does not assume it.
- ImageController.BatchDeleteImages: the listed ids are taken as integers. Strings and other JSON values inside the array, which MySQL would cast, are not modelled.
- Where the repository's documentation describes more than the code does, the code is followed:
  - the name repair keeps any candidate that differs from the raw name, with no further validity check;
  - an insert has no digest uniqueness constraint;
  - there is no retry after a key conflict.

=== FILE: controller.dfy ===
/** The decision logic of `src/controllers/imageController.js`: each handler
    takes the table (and the effects it may use) and returns the response,
    the new table and the S3 uploads it issued. */
module ImageController {
  import opened Wrappers
  import opened Seqs
  import opened Text
  import opened Platform
  import opened S3Service
  import opened ImageModel
  import opened Http
  import opened UploadMiddleware

  /** One `uploadFile(buffer, filename, mimeType)` call. */
  datatype PutCall = PutCall(key: string, body: seq<byte>, contentType: string)

  /** What a handler borrows from outside: the codecs, the clock, the S3
      upload (the object URL, or None when it throws) and
      `buffer.toString('base64')`. */
  datatype Env = Env(
    codecs: Codecs,
    now: Clock,
    putObject: (string, seq<byte>, string) -> Option<string>,
    toBase64: seq<byte> -> string)

  /** A handler's response, the table after it, and the S3 uploads it made. */
  datatype Handled = Handled(response: Response, table: Table, puts: seq<PutCall>)

  /** Files below 1 MiB carry an inline base64 preview. */
  const PREVIEW_LIMIT: nat := 1024 * 1024

  /** `data:<mime>;base64,<content>` for a small file, null otherwise. */
  function Preview(file: UploadedFile, env: Env): (p: Option<string>)
    ensures p.Some? <==> file.size < PREVIEW_LIMIT
  {
    if file.size < PREVIEW_LIMIT then Some("data:" + file.mimetype + ";base64," + env.toBase64(file.buffer)) else None
  }

  /** `uploadImage(req, res)` after the middleware has set the recovered
      name and the digest. A live row with the digest answers 200 with that
      row and nothing is written; otherwise the file is put to S3 under a
      fresh key and, once that succeeds, recorded in the table (201). */
  function UploadImage(t: Table, file: UploadedFile, fileHash: string, env: Env): (h: Handled)
    ensures FindByHash(t, fileHash, env.codecs).Some? ==>
              var e := FindByHash(t, fileHash, env.codecs).value;
              && h.table == t && h.puts == []
              && h.response == Response(200, true, Uploaded(UploadData(
                   e.id, e.filename, file.originalname, e.url, e.fileSize, e.mimeType, e.uploadTime, true, e.base64Data)))
    ensures FindByHash(t, fileHash, env.codecs).None? ==>
              var key := GenerateUniqueFilename(file.originalname, fileHash, env.now);
              && h.puts == [PutCall(key, file.buffer, file.mimetype)]
              && (h.response.status == 201 || (h.response == Failure(500) && h.table == t))
              && (h.response.status == 201 <==>
                    env.putObject(key, file.buffer, file.mimetype).Some? && !FilenameTaken(t.rows, key) && t.nextId <= MAX_ID)
    ensures h.response.status == 201 ==>
              && h.response.payload.Uploaded?
              && !h.response.payload.upload.isDuplicate
              && h.table.rows == t.rows + [NewRow(h.response.payload.upload.id, NewImage(
                   GenerateUniqueFilename(file.originalname, fileHash, env.now), file.originalname,
                   h.response.payload.upload.url, fileHash, file.size, file.mimetype, Preview(file, env)), env.now)]
    ensures h.response.status == 201 ==>
              var u := h.response.payload.upload;
              var key := GenerateUniqueFilename(file.originalname, fileHash, env.now);
              && h.response.success
              && env.putObject(key, file.buffer, file.mimetype) == Some(u.url)
              && u == UploadData(u.id, key, file.originalname, u.url, file.size, file.mimetype, env.now, false, Preview(file, env))
    ensures h.response.status == 201 && Valid(t) ==> Valid(h.table)
  {
    var processedOriginalName := file.originalname;
    match FindByHash(t, fileHash, env.codecs)
    case Some(e) =>
      Handled(Response(200, true, Uploaded(UploadData(
        e.id, e.filename, processedOriginalName, e.url, e.fileSize, e.mimeType, e.uploadTime, true, e.base64Data))), t, [])
    case None =>
      var filename := GenerateUniqueFilename(processedOriginalName, fileHash, env.now);
      var put := PutCall(filename, file.buffer, file.mimetype);
      match env.putObject(filename, file.buffer, file.mimetype)
      case None => Handled(Failure(500), t, [put])
      case Some(url) =>
        var base64Data := Preview(file, env);
        var img := NewImage(filename, processedOriginalName, url, fileHash, file.size, file.mimetype, base64Data);
        match Create(t, img, env.now)
        case Err(_) => Handled(Failure(500), t, [put])
        case Ok(ins) =>
          Handled(Response(201, true, Uploaded(UploadData(
            ins.id, filename, processedOriginalName, url, file.size, file.mimetype, env.now, false, base64Data))),
            ins.table, [put])
  }

  /** The whole upload route: the middleware, then the controller when the
      middleware calls `next`. */
  function HandleUpload(t: Table, req: Request, env: Env, digest: seq<byte> -> string): (h: Handled)
    ensures req.file.None? ==> h == Handled(Failure(400), t, [])
    ensures req.file.Some? ==>
              var file := req.file.value;
              var name := NormalizeName(file.originalname, EncodingMethod(req.body),
                                        OrDefault(req.body.originalFilename, file.originalname), env.codecs);
              h == UploadImage(t, file.(originalname := name), digest(file.buffer), env)
  {
    match CalculateFileHash(req, env.codecs, digest)
    case Respond(resp) => Handled(resp, t, [])
    case Next(req') => UploadImage(t, req'.file.value, req'.fileHash.value, env)
  }

  /** A query-string number after `parseInt`: absent, NaN, or an integer. */
  datatype QueryInt = Absent | NaN | Int(value: int)

  /** `parseInt(q)` with the destructuring default applied when absent;
      None is NaN. */
  function ParseOr(q: QueryInt, default: int): Option<int> {
    match q
    case Absent => Some(default)
    case NaN => None
    case Int(v) => Some(v)
  }

  predicate ValidPage(p: Option<int>) {
    p.Some? && p.value >= 1
  }

  predicate ValidPageSize(p: Option<int>) {
    p.Some? && 1 <= p.value <= 100
  }

  /** `getImageList(req, res)`: a page below 1 or NaN, or a page size outside
      1..100 or NaN, is refused with 400 before the table is read; otherwise
      the table's listing is returned with 200. Page defaults to 1 and page
      size to 10. */
  function GetImageList(t: Table, page: QueryInt, pageSize: QueryInt, f: Filters, c: Codecs): (r: Response)
    ensures r.status == 400 <==> !ValidPage(ParseOr(page, 1)) || !ValidPageSize(ParseOr(pageSize, 10))
    ensures r.status == 400 ==> r == Failure(400)
    ensures r.status != 400 ==> r.status == 200 && r.success && r.payload.ListPage?
    ensures r.status == 200 ==>
              r.payload.list == GetList(t, ParseOr(page, 1).value, ParseOr(pageSize, 10).value, f, c)
  {
    var pageNum := ParseOr(page, 1);
    var pageSizeNum := ParseOr(pageSize, 10);
    if !ValidPage(pageNum) then Failure(400)
    else if !ValidPageSize(pageSizeNum) then Failure(400)
    else Response(200, true, ListPage(GetList(t, pageNum.value, pageSizeNum.value, f, c)))
  }

  /** `deleteImage(req, res)`: 400 without an id, 404 (and no change) when no
      live row has it, otherwise that row is soft-deleted and 200 returned. */
  function DeleteImage(t: Table, id: Option<int>, now: Clock, c: Codecs): (h: Handled)
    ensures h.puts == []
    ensures id.None? ==> h.response == Failure(400) && h.table == t
    ensures id.Some? && FindById(t, id.value, c).None? ==> h.response == Failure(404) && h.table == t
    ensures id.Some? && FindById(t, id.value, c).Some? ==>
              h.response == Response(200, true, NoData) && h.table == SoftDelete(t, id.value, now).table
  {
    match id
    case None => Handled(Failure(400), t, [])
    case Some(i) =>
      match FindById(t, i, c)
      case None => Handled(Failure(404), t, [])
      case Some(_) => Handled(Response(200, true, NoData), SoftDelete(t, i, now).table, [])
  }

  /** `getImageByHash(req, res)`: 400 for an empty hash, 404 when no live row
      has it, otherwise 200 with the repaired row. */
  function GetImageByHash(t: Table, hash: string, c: Codecs): (r: Response)
    ensures hash == "" ==> r == Failure(400)
    ensures hash != "" && FindByHash(t, hash, c).None? ==> r == Failure(404)
    ensures hash != "" && FindByHash(t, hash, c).Some? ==> r == Response(200, true, Image(FindByHash(t, hash, c).value))
    ensures r.status == 200 ==> r.payload.Image? && !r.payload.row.isDeleted && r.payload.row.fileHash == hash
  {
    if hash == "" then Failure(400)
    else
      match FindByHash(t, hash, c)
      case None => Failure(404)
      case Some(row) => Response(200, true, Image(row))
  }

  /** The `ids` field of the batch-delete body. */
  datatype IdsField = Missing | NotAnArray | IdList(ids: seq<int>)

  predicate IsLiveId(t: Table, id: int) {
    exists i :: 0 <= i < |t.rows| && LiveMatch(ById(id), t.rows[i])
  }

  function LiveIdIn(t: Table): int -> bool {
    (x: int) => IsLiveId(t, x)
  }

  /** The distinct ids kept by the lookup loop are the listed live ids, and
      the table holds each of them. */
  lemma KeptIds(t: Table, ids: seq<int>, existing: seq<int>)
    requires existing == Filter(ids, LiveIdIn(t))
    ensures (set x | x in existing) == (set x | x in ids && IsLiveId(t, x))
    ensures (set x | x in existing) * Ids(t.rows) == (set x | x in existing)
  {
    forall x | x in ids && IsLiveId(t, x) ensures x in existing {
      assert multiset(ids)[x] > 0;
      assert multiset(existing)[x] > 0;
    }
    forall x | x in existing ensures x in ids && x in Ids(t.rows) {
      assert multiset(existing)[x] > 0;
      assert LiveIdIn(t)(x);
      var i :| 0 <= i < |t.rows| && LiveMatch(ById(x), t.rows[i]);
      assert t.rows[i] in t.rows;
    }
  }

  /** `findById` answers exactly for the ids the table holds live. */
  lemma FoundIffLive(t: Table, id: int, c: Codecs)
    ensures FindById(t, id, c).Some? <==> LiveIdIn(t)(id)
  {
  }

  /** One turn of the lookup loop keeps exactly the ids it finds. */
  lemma CollectStep(t: Table, ids: seq<int>, k: nat, existing: seq<int>, found: bool)
    requires k < |ids| && existing == Filter(ids[..k], LiveIdIn(t))
    requires found <==> LiveIdIn(t)(ids[k])
    ensures (if found then existing + [ids[k]] else existing) == Filter(ids[..k + 1], LiveIdIn(t))
  {
    assert ids[..k + 1] == ids[..k] + [ids[k]];
    FilterSnoc(ids[..k], ids[k], LiveIdIn(t));
  }

  /** The lookup loop of `batchDeleteImages`: every listed id that
      `findById` finds, in order and with repetitions. */
  method CollectLive(t: Table, ids: seq<int>, c: Codecs) returns (existing: seq<int>)
    ensures existing == Filter(ids, LiveIdIn(t))
  {
    existing := [];
    var k := 0;
    assert ids[..0] == [];
    while k < |ids|
      invariant 0 <= k <= |ids|
      invariant existing == Filter(ids[..k], LiveIdIn(t))
    {
      var image := FindById(t, ids[k], c);
      FoundIffLive(t, ids[k], c);
      CollectStep(t, ids, k, existing, image.Some?);
      if image.Some? {
        existing := existing + [ids[k]];
      }
      k := k + 1;
    }
    assert ids[..k] == ids;
  }

  /** What soft-deleting the kept ids does to the table and what it
      reports. */
  lemma BatchOutcome(t: Table, ids: seq<int>, existing: seq<int>, now: Clock)
    requires existing == Filter(ids, LiveIdIn(t)) && |existing| > 0
    ensures existing[0] in ids && IsLiveId(t, existing[0])
    ensures var r := BatchSoftDelete(t, existing, now);
            && |r.table.rows| == |t.rows|
            && (UniqueIds(t.rows) ==> r.count == |set x | x in ids && IsLiveId(t, x)|)
            && forall i :: 0 <= i < |t.rows| ==>
                 if IsLiveId(t, t.rows[i].id) && t.rows[i].id in ids then
                   && r.table.rows[i].isDeleted
                   && r.table.rows[i].(isDeleted := t.rows[i].isDeleted, updatedAt := t.rows[i].updatedAt) == t.rows[i]
                 else r.table.rows[i] == t.rows[i]
  {
    KeptIds(t, ids, existing);
    assert existing[0] in existing;
    assert multiset(existing)[existing[0]] > 0;
  }

  /** `batchDeleteImages(req, res)`: 400 for a missing, non-array or empty
      list; each listed id is looked up in turn and the live ones kept (with
      their repetitions); 404 when none is live; otherwise those are
      soft-deleted together and the counts reported. */
  method BatchDeleteImages(t: Table, field: IdsField, now: Clock, c: Codecs) returns (h: Handled)
    ensures h.puts == []
    ensures !field.IdList? || |field.ids| == 0 ==> h.response == Failure(400) && h.table == t
    ensures field.IdList? && |field.ids| > 0 && (forall x :: x in field.ids ==> !IsLiveId(t, x)) ==>
              h.response == Failure(404) && h.table == t
    ensures field.IdList? && |field.ids| > 0 ==>
              (h.response.status == 200 <==> exists x :: x in field.ids && IsLiveId(t, x))
    ensures h.response.status == 200 ==>
              && field.IdList? && h.response.success && h.response.payload.Batch?
              && var rep := h.response.payload.report;
                 && rep.requested == |field.ids|
                 && rep.found + rep.notFound == rep.requested
                 && rep.found == |Filter(field.ids, LiveIdIn(t))|
                 && (UniqueIds(t.rows) ==> rep.deleted == |set x | x in field.ids && IsLiveId(t, x)|)
    ensures |h.table.rows| == |t.rows|
    ensures h.response.status == 200 ==>
              forall i :: 0 <= i < |t.rows| ==>
                if IsLiveId(t, t.rows[i].id) && t.rows[i].id in field.ids then
                  && h.table.rows[i].isDeleted
                  && h.table.rows[i].(isDeleted := t.rows[i].isDeleted, updatedAt := t.rows[i].updatedAt) == t.rows[i]
                else h.table.rows[i] == t.rows[i]
  {
    if !field.IdList? || |field.ids| == 0 {
      return Handled(Failure(400), t, []);
    }
    var ids := field.ids;
    var existing := CollectLive(t, ids, c);
    if |existing| == 0 {
      forall x | x in ids ensures !IsLiveId(t, x) {
        assert multiset(ids)[x] > 0 && multiset(existing)[x] == 0;
        assert !LiveIdIn(t)(x);
      }
      return Handled(Failure(404), t, []);
    }
    var r := BatchSoftDelete(t, existing, now);
    BatchOutcome(t, ids, existing, now);
    var report := BatchReport(|ids|, |existing|, r.count, |ids| - |existing|);
    h := Handled(Response(200, true, Batch(report)), r.table, []);
  }

  /** An upload keeps the schema facts and, because it writes a row only
      when no live row has the digest, keeps live hashes unique. */
  lemma UploadPreservesInvariants(t: Table, file: UploadedFile, fileHash: string, env: Env)
    requires Valid(t) && LiveHashesUnique(t)
    ensures Valid(UploadImage(t, file, fileHash, env).table)
    ensures LiveHashesUnique(UploadImage(t, file, fileHash, env).table)
  {
    var h := UploadImage(t, file, fileHash, env);
    if h.response.status == 201 {
      NewLiveHashKeepsUnique(t, h.table, h.table.rows[|t.rows|], env.codecs);
    }
  }

  /** Appending a live row whose hash no live row has keeps live hashes
      unique. */
  lemma NewLiveHashKeepsUnique(t: Table, t': Table, r: Row, c: Codecs)
    requires LiveHashesUnique(t) && FindByHash(t, r.fileHash, c).None?
    requires t'.rows == t.rows + [r]
    ensures LiveHashesUnique(t')
  {
    var rows, n := t'.rows, |t.rows|;
    assert forall k :: 0 <= k < n ==> rows[k] == t.rows[k];
    assert forall k :: 0 <= k < n ==> !LiveMatch(ByHash(r.fileHash), t.rows[k]);
  }

  /** Appending a live row whose hash no live row has makes it the row
      `findByHash` answers for that hash. */
  lemma FindAppendedHash(t: Table, t': Table, r: Row, c: Codecs)
    requires FindByHash(t, r.fileHash, c).None? && !r.isDeleted
    requires t'.rows == t.rows + [r]
    ensures FindByHash(t', r.fileHash, c) == Some(FixObjectEncoding(r, c))
  {
    var n := |t.rows|;
    assert forall k :: 0 <= k < n ==> t'.rows[k] == t.rows[k];
    assert forall k :: 0 <= k < n ==> !LiveMatch(ByHash(r.fileHash), t.rows[k]);
    assert LiveMatch(ByHash(r.fileHash), t'.rows[n]);
  }

  /** After an upload stores a file, uploading content with the same digest
      stores nothing: it answers 200 with the stored row's id, flagged as a
      duplicate, and writes neither S3 nor the table. */
  lemma SecondUploadIsDuplicate(t: Table, file1: UploadedFile, file2: UploadedFile, fileHash: string,
                                env1: Env, env2: Env)
    requires UploadImage(t, file1, fileHash, env1).response.status == 201
    ensures var h1 := UploadImage(t, file1, fileHash, env1);
            var h2 := UploadImage(h1.table, file2, fileHash, env2);
            && h2.table == h1.table && h2.puts == []
            && h2.response.status == 200 && h2.response.payload.Uploaded?
            && h2.response.payload.upload.isDuplicate
            && h2.response.payload.upload.id == h1.response.payload.upload.id
            && h2.response.payload.upload.originalName == file2.originalname
  {
    var h1 := UploadImage(t, file1, fileHash, env1);
    var r := h1.table.rows[|t.rows|];
    FindAppendedHash(t, h1.table, r, env2.codecs);
  }

  /** The same at the route: two requests carrying the same bytes, the first
      stored, make the second a duplicate of it. */
  lemma SameContentStoredOnce(t: Table, req1: Request, req2: Request, env1: Env, env2: Env,
                              digest: seq<byte> -> string)
    requires req1.file.Some? && req2.file.Some? && req1.file.value.buffer == req2.file.value.buffer
    requires HandleUpload(t, req1, env1, digest).response.status == 201
    ensures var h1 := HandleUpload(t, req1, env1, digest);
            var h2 := HandleUpload(h1.table, req2, env2, digest);
            && h2.table == h1.table && h2.puts == []
            && h2.response.status == 200 && h2.response.payload.Uploaded?
            && h2.response.payload.upload.isDuplicate
            && h2.response.payload.upload.id == h1.response.payload.upload.id
  {
    var o1 := CalculateFileHash(req1, env1.codecs, digest);
    var o2 := CalculateFileHash(req2, env2.codecs, digest);
    var f1, f2 := o1.request.file.value, o2.request.file.value;
    assert f1.buffer == req1.file.value.buffer;
    assert f2.buffer == req2.file.value.buffer;
    SecondUploadIsDuplicate(t, f1, f2, digest(f1.buffer), env1, env2);
  }

  /** A live-hash miss whose generated key is already some row's filename
      (deleted or not) still puts the object to S3 and then fails with 500,
      leaving the table as it was. */
  lemma KeyCollisionFailsAfterPut(t: Table, file: UploadedFile, fileHash: string, env: Env, i: nat)
    requires FindByHash(t, fileHash, env.codecs).None?
    requires i < |t.rows| && t.rows[i].filename == GenerateUniqueFilename(file.originalname, fileHash, env.now)
    ensures var h := UploadImage(t, file, fileHash, env);
            && h.response == Failure(500) && h.table == t
            && h.puts == [PutCall(t.rows[i].filename, file.buffer, file.mimetype)]
  {
    assert FilenameTaken(t.rows, t.rows[i].filename);
  }

  /** Deleting a file and uploading it again at the same wall-clock time of
      day in the same month, on another day, reproduces the deleted row's
      key, so the upload fails after the object is put. */
  lemma ReuploadOnAnotherDayCollides(t: Table, file: UploadedFile, env: Env, i: nat, day: nat)
    requires i < |t.rows| && t.rows[i].isDeleted
    requires t.rows[i].filename
             == GenerateUniqueFilename(file.originalname, t.rows[i].fileHash, env.now.(date := day))
    requires FindByHash(t, t.rows[i].fileHash, env.codecs).None?
    ensures var h := UploadImage(t, file, t.rows[i].fileHash, env);
            && h.response == Failure(500) && h.table == t && |h.puts| == 1
  {
    KeyIgnoresDay(file.originalname, t.rows[i].fileHash, env.now, day);
    KeyCollisionFailsAfterPut(t, file, t.rows[i].fileHash, env, i);
  }

  /** A successful delete hides the row from every live lookup by id while
      the row itself stays in the table, and keeps the schema facts. */
  lemma DeleteHidesRow(t: Table, id: int, now: Clock, c: Codecs)
    requires FindById(t, id, c).Some?
    ensures var h := DeleteImage(t, Some(id), now, c);
            && h.response.status == 200
            && FindById(h.table, id, c).None?
            && id in Ids(h.table.rows)
            && (Valid(t) ==> Valid(h.table))
  {
    var k :| 0 <= k < |t.rows| && LiveMatch(ById(id), t.rows[k]);
    SoftDeleteHides(t, id, now, c, k);
    SoftDeletePreserves(t, id, now);
  }

  /** With unique ids in the table, listing a live id twice makes `found`
      exceed `deleted`: the first counts the lookups that succeeded, the
      second the distinct rows the UPDATE matched. */
  lemma RepeatedIdOverCountsFound(t: Table, ids: seq<int>, i: nat, j: nat)
    requires i < j < |ids| && ids[i] == ids[j] && IsLiveId(t, ids[i])
    ensures |set x | x in ids && IsLiveId(t, x)| < |Filter(ids, LiveIdIn(t))|
  {
    var existing := Filter(ids, LiveIdIn(t));
    KeptIds(t, ids, existing);
    assert ids == ids[..j] + [ids[j]] + ids[j + 1..];
    assert ids[i] in ids[..j];
    assert multiset(ids)[ids[i]] >= 2;
    assert multiset(existing)[ids[i]] >= 2;
    DistinctBelowLength(existing, ids[i]);
  }

  /** A sequence with a repeated element has fewer distinct elements than
      entries. */
  lemma {:induction false} DistinctBelowLength(s: seq<int>, x: int)
    ensures |set y | y in s| <= |s|
    ensures multiset(s)[x] >= 2 ==> |set y | y in s| < |s|
  {
    if |s| > 0 {
      var rest := s[1..];
      assert s == [s[0]] + rest;
      DistinctBelowLength(rest, x);
      assert (set y | y in s) == {s[0]} + (set y | y in rest);
      if s[0] in rest {
        assert (set y | y in s) == (set y | y in rest);
      } else if multiset(s)[x] >= 2 {
        assert multiset(rest)[x] >= 2;
      }
    } else {
      assert (set y | y in s) == {};
    }
  }
}

=== FILE: http.dfy ===
/** The JSON responses the handlers send, as status, success flag and
    payload. Human-readable messages are not modelled. */
module Http {
  import opened Wrappers
  import opened Platform
  import opened ImageModel

  /** The `data` object of an upload response. */
  datatype UploadData = UploadData(
    id: nat,
    filename: string,
    originalName: string,
    url: string,
    fileSize: nat,
    mimeType: string,
    uploadTime: Clock,
    isDuplicate: bool,
    base64: Option<string>)

  /** The `data` object of a batch-delete response. */
  datatype BatchReport = BatchReport(requested: nat, found: nat, deleted: nat, notFound: nat)

  datatype Payload =
    | NoData
    | Uploaded(upload: UploadData)
    | ListPage(list: ListResult)
    | Image(row: Row)
    | Batch(report: BatchReport)

  datatype Response = Response(status: nat, success: bool, payload: Payload)

  /** An error response: `{ success: false, message }`. */
  function Failure(status: nat): Response {
    Response(status, false, NoData)
  }
}

=== FILE: image_model.dfy ===
/** The `images` metadata table of `src/models/ImageModel.js`, held in memory
    as a sequence of rows with a soft-delete flag, together with the
    read-side repair of mis-encoded names. The SQL statements become pure
    functions from a table to a (new table, answer) pair. */
module ImageModel {
  import opened Wrappers
  import opened Seqs
  import opened Text
  import opened Platform

  const REPLACEMENT_CHARACTER: char := '�'

  /** A reinterpretation `fixEncoding` is willing to keep: truthy and free of
      the replacement character. */
  predicate Acceptable(s: string) {
    s != "" && REPLACEMENT_CHARACTER !in s
  }

  /** `fixEncoding(text)`: keeps empty text and text that survives a UTF-8
      round trip; otherwise tries latin1 then binary reinterpretation and keeps
      the first acceptable one. Any throwing codec leaves the text as it is. */
  function FixEncoding(text: string, c: Codecs): (r: string)
    ensures text == "" ==> r == text
    ensures c.utf8ToUtf8(text) == Some(text) ==> r == text
    ensures r == text || (Acceptable(r) && (c.latin1ToUtf8(text) == Some(r) || c.binaryToUtf8(text) == Some(r)))
    ensures text != "" && c.utf8ToUtf8(text).None? ==> r == text
    ensures text != "" && c.utf8ToUtf8(text).Some? && c.utf8ToUtf8(text) != Some(text)
            && c.latin1ToUtf8(text).None?
            ==> r == text
    ensures text != "" && c.utf8ToUtf8(text).Some? && c.utf8ToUtf8(text) != Some(text)
            && c.latin1ToUtf8(text).Some? && Acceptable(c.latin1ToUtf8(text).value)
            ==> r == c.latin1ToUtf8(text).value
    ensures text != "" && c.utf8ToUtf8(text).Some? && c.utf8ToUtf8(text) != Some(text)
            && c.latin1ToUtf8(text).Some? && !Acceptable(c.latin1ToUtf8(text).value)
            && c.binaryToUtf8(text).Some? && Acceptable(c.binaryToUtf8(text).value)
            ==> r == c.binaryToUtf8(text).value
  {
    if text == "" then text
    else
      match c.utf8ToUtf8(text)
      case None => text
      case Some(same) =>
        if same == text then text
        else
          match c.latin1ToUtf8(text)
          case None => text
          case Some(l) =>
            if Acceptable(l) then l
            else
              match c.binaryToUtf8(text)
              case None => text
              case Some(b) => if Acceptable(b) then b else text
  }

  /** One row of `images`. `base64Data` is nullable. */
  datatype Row = Row(
    id: nat,
    filename: string,
    originalName: string,
    url: string,
    fileHash: string,
    fileSize: nat,
    mimeType: string,
    base64Data: Option<string>,
    uploadTime: Clock,
    updatedAt: Clock,
    isDeleted: bool)

  /** `fixObjectEncoding(row)`: repairs the two name columns and copies every
      other column unchanged. */
  function FixObjectEncoding(row: Row, c: Codecs): (r: Row)
    ensures r.(originalName := row.originalName, filename := row.filename) == row
    ensures r.originalName == FixEncoding(row.originalName, c)
    ensures r.filename == FixEncoding(row.filename, c)
  {
    row.(originalName := FixEncoding(row.originalName, c), filename := FixEncoding(row.filename, c))
  }

  /** `fixArrayEncoding(rows)`: the row repair applied to each row, in order. */
  function FixArrayEncoding(rows: seq<Row>, c: Codecs): (r: seq<Row>)
    ensures |r| == |rows|
    ensures forall i :: 0 <= i < |rows| ==> r[i] == FixObjectEncoding(rows[i], c)
  {
    seq(|rows|, i requires 0 <= i < |rows| => FixObjectEncoding(rows[i], c))
  }

  /** The table and its AUTO_INCREMENT counter. */
  datatype Table = Table(rows: seq<Row>, nextId: nat)

  /** What the schema guarantees: `id` is the primary key below the
      AUTO_INCREMENT counter and `filename` is UNIQUE over all rows, deleted
      or not. `file_hash` is only indexed, so nothing here constrains it. */
  ghost predicate Valid(t: Table) {
    && (forall i, j :: 0 <= i < j < |t.rows| ==> t.rows[i].id != t.rows[j].id)
    && (forall i, j :: 0 <= i < j < |t.rows| ==> t.rows[i].filename != t.rows[j].filename)
    && (forall i :: 0 <= i < |t.rows| ==> t.rows[i].id < t.nextId)
  }

  function Ids(rows: seq<Row>): set<int> {
    set r | r in rows :: r.id as int
  }

  /** The single-column lookups of `findByHash`, `findById` and
      `findByFilename`. */
  datatype Lookup = ByHash(hash: string) | ById(id: int) | ByFilename(filename: string)

  predicate Selects(k: Lookup, r: Row) {
    match k
    case ByHash(h) => r.fileHash == h
    case ById(id) => r.id == id
    case ByFilename(f) => r.filename == f
  }

  /** `WHERE <column> = ? AND is_deleted = 0`. */
  predicate LiveMatch(k: Lookup, r: Row) {
    !r.isDeleted && Selects(k, r)
  }

  /** Index of the first row the lookup selects among the live rows. */
  function FirstLive(rows: seq<Row>, k: Lookup): (r: Option<nat>)
    ensures r.None? <==> forall i :: 0 <= i < |rows| ==> !LiveMatch(k, rows[i])
    ensures r.Some? ==> r.value < |rows| && LiveMatch(k, rows[r.value])
    ensures r.Some? ==> forall i :: 0 <= i < r.value ==> !LiveMatch(k, rows[i])
  {
    if |rows| == 0 then None
    else if LiveMatch(k, rows[0]) then Some(0)
    else
      match FirstLive(rows[1..], k)
      case None => None
      case Some(i) => Some(i + 1)
  }

  /** `findByHash` / `findById` / `findByFilename`: the first live row the
      lookup selects, repaired, or null. A deleted row is never returned. */
  function FindLive(t: Table, k: Lookup, c: Codecs): (r: Option<Row>)
    ensures r.None? <==> forall i :: 0 <= i < |t.rows| ==> !LiveMatch(k, t.rows[i])
    ensures r.Some? ==> exists i :: 0 <= i < |t.rows| && LiveMatch(k, t.rows[i]) && r.value == FixObjectEncoding(t.rows[i], c)
                          && forall j :: 0 <= j < i ==> !LiveMatch(k, t.rows[j])
    ensures r.Some? ==> !r.value.isDeleted
  {
    match FirstLive(t.rows, k)
    case None => None
    case Some(i) => Some(FixObjectEncoding(t.rows[i], c))
  }

  function FindByHash(t: Table, hash: string, c: Codecs): Option<Row> {
    FindLive(t, ByHash(hash), c)
  }

  function FindById(t: Table, id: int, c: Codecs): Option<Row> {
    FindLive(t, ById(id), c)
  }

  function FindByFilename(t: Table, filename: string, c: Codecs): Option<Row> {
    FindLive(t, ByFilename(filename), c)
  }

  /** The columns `create` inserts. */
  datatype NewImage = NewImage(
    filename: string,
    originalName: string,
    url: string,
    fileHash: string,
    fileSize: nat,
    mimeType: string,
    base64Data: Option<string>)

  /** The largest value of the signed 32-bit `id int` column. */
  const MAX_ID: nat := 0x7FFF_FFFF

  /** The constraints an INSERT can violate here: UNIQUE(filename), and the
      AUTO_INCREMENT counter running past the `int` range of `id`. */
  datatype CreateError = DuplicateFilename | IdExhausted

  datatype Inserted = Inserted(id: nat, table: Table)

  function NewRow(id: nat, img: NewImage, now: Clock): Row {
    Row(id, img.filename, img.originalName, img.url, img.fileHash, img.fileSize, img.mimeType,
        img.base64Data, now, now, false)
  }

  predicate FilenameTaken(rows: seq<Row>, filename: string) {
    exists i | 0 <= i < |rows| :: rows[i].filename == filename
  }

  /** `create(imageData)`: appends a live row stamped `now` under the next
      AUTO_INCREMENT id and returns that id. It fails on a filename already
      present in any row and once the counter has passed the largest `int`;
      it does not look at `file_hash`. */
  function Create(t: Table, img: NewImage, now: Clock): (r: Result<Inserted, CreateError>)
    ensures r.Err? <==> (exists i :: 0 <= i < |t.rows| && t.rows[i].filename == img.filename) || t.nextId > MAX_ID
    ensures r.Ok? ==> r.value.id <= MAX_ID
    ensures r.Ok? ==> r.value.table.rows == t.rows + [NewRow(r.value.id, img, now)]
    ensures r.Ok? ==> r.value.id < r.value.table.nextId
    ensures r.Ok? && Valid(t) ==> Valid(r.value.table) && r.value.id !in Ids(t.rows)
  {
    if FilenameTaken(t.rows, img.filename) then Err(DuplicateFilename)
    else if t.nextId > MAX_ID then Err(IdExhausted)
    else Ok(Inserted(t.nextId, Table(t.rows + [NewRow(t.nextId, img, now)], t.nextId + 1)))
  }

  /** `DATE_FORMAT(upload_time, "%Y-%m")`. */
  function MonthKey(c: Clock): string {
    PadStart(Digits(c.year), 4, '0') + "-" + Pad2(c.monthIndex + 1)
  }

  /** The optional `month` and `keyword` filters of `getList`; an absent or
      empty one does not filter. */
  datatype Filters = Filters(month: Option<string>, keyword: Option<string>)

  /** The WHERE clause of `getList`: live, in the month (when given), and
      with the keyword inside `original_name` or `filename` (when given). */
  predicate Listed(f: Filters, r: Row) {
    && !r.isDeleted
    && (Truthy(f.month) ==> MonthKey(r.uploadTime) == f.month.value)
    && (Truthy(f.keyword) ==> Contains(r.originalName, f.keyword.value) || Contains(r.filename, f.keyword.value))
  }

  function ListedBy(f: Filters): Row -> bool {
    (r: Row) => Listed(f, r)
  }

  ghost predicate SortedNewestFirst(s: seq<Row>) {
    forall i, j :: 0 <= i < j < |s| ==> Instant(s[i].uploadTime) >= Instant(s[j].uploadTime)
  }

  function InsertNewestFirst(r: Row, s: seq<Row>): (o: seq<Row>)
    requires SortedNewestFirst(s)
    ensures multiset(o) == multiset(s) + multiset{r}
    ensures forall x :: x in o ==> x == r || x in s
    ensures SortedNewestFirst(o)
  {
    if |s| == 0 then [r]
    else if Instant(r.uploadTime) >= Instant(s[0].uploadTime) then [r] + s
    else
      assert s == [s[0]] + s[1..];
      var tail := InsertNewestFirst(r, s[1..]);
      HeadStaysNewest(r, s, tail);
      [s[0]] + tail
  }

  /** When `r` is older than the head of `s`, that head is at least as new as
      anything inserting `r` into the rest can produce. */
  lemma HeadStaysNewest(r: Row, s: seq<Row>, tail: seq<Row>)
    requires |s| > 0 && SortedNewestFirst(s) && SortedNewestFirst(tail)
    requires Instant(r.uploadTime) < Instant(s[0].uploadTime)
    requires forall x :: x in tail ==> x == r || x in s[1..]
    ensures SortedNewestFirst([s[0]] + tail)
  {
    var o := [s[0]] + tail;
    forall x | x in tail ensures Instant(x.uploadTime) <= Instant(s[0].uploadTime) {
      if x != r {
        var k :| 0 <= k < |s[1..]| && s[1..][k] == x;
        assert s[k + 1] == x;
      }
    }
    forall i, j | 0 <= i < j < |o| ensures Instant(o[i].uploadTime) >= Instant(o[j].uploadTime) {
      assert o[j] == tail[j - 1] && o[j] in tail;
      if i > 0 {
        assert o[i] == tail[i - 1];
      }
    }
  }

  /** `ORDER BY upload_time DESC`; rows with equal times keep table order. */
  function SortNewestFirst(s: seq<Row>): (o: seq<Row>)
    ensures multiset(o) == multiset(s)
    ensures SortedNewestFirst(o)
  {
    if |s| == 0 then []
    else
      assert s == [s[0]] + s[1..];
      InsertNewestFirst(s[0], SortNewestFirst(s[1..]))
  }

  /** Every row `getList` can show, in display order. */
  function Listing(t: Table, f: Filters): (s: seq<Row>)
    ensures SortedNewestFirst(s)
    ensures forall r :: multiset(s)[r] == if Listed(f, r) then multiset(t.rows)[r] else 0
  {
    SortNewestFirst(Filter(t.rows, ListedBy(f)))
  }

  /** `LIMIT pageSize OFFSET (page - 1) * pageSize`. */
  function PageOf(s: seq<Row>, page: nat, pageSize: nat): (p: seq<Row>)
    requires page >= 1
    ensures |p| <= pageSize
    ensures forall x :: x in p ==> x in s
  {
    var offset := (page - 1) * pageSize;
    if offset >= |s| then [] else s[offset..Min(offset + pageSize, |s|)]
  }

  /** `Math.ceil(total / pageSize)`. */
  function TotalPages(total: nat, pageSize: nat): nat
    requires pageSize >= 1
  {
    (total + pageSize - 1) / pageSize
  }

  datatype Pagination = Pagination(page: nat, pageSize: nat, total: nat, totalPages: nat)

  datatype ListResult = ListResult(data: seq<Row>, pagination: Pagination)

  /** `getList(page, pageSize, month, keyword)` for the positive page and
      page size the controller admits: one page of the live filtered rows,
      newest first and repaired, with the total count of such rows. */
  function GetList(t: Table, page: nat, pageSize: nat, f: Filters, c: Codecs): (r: ListResult)
    requires page >= 1 && pageSize >= 1
    ensures |r.data| <= pageSize
    ensures r.data == FixArrayEncoding(PageOf(Listing(t, f), page, pageSize), c)
    ensures forall i :: 0 <= i < |r.data| ==> !r.data[i].isDeleted
    ensures r.pagination.page == page && r.pagination.pageSize == pageSize
    ensures r.pagination.total == |Filter(t.rows, ListedBy(f))|
    ensures r.pagination.totalPages == TotalPages(r.pagination.total, pageSize)
  {
    var all := Listing(t, f);
    var part := PageOf(all, page, pageSize);
    var data := FixArrayEncoding(part, c);
    assert forall i :: 0 <= i < |data| ==> !data[i].isDeleted by {
      forall i | 0 <= i < |data| ensures !data[i].isDeleted {
        assert part[i] in all;
        assert multiset(all)[part[i]] > 0;
      }
    }
    var total := |all|;
    assert total == |Filter(t.rows, ListedBy(f))| by {
      assert |multiset(all)| == |multiset(Filter(t.rows, ListedBy(f)))|;
    }
    ListResult(data, Pagination(page, pageSize, total, TotalPages(total, pageSize)))
  }

  /** `SET is_deleted = 1` on one row. MySQL leaves a row it would not change
      untouched, so `updated_at` moves only when the row was live. */
  function MarkDeleted(r: Row, now: Clock): Row {
    if r.isDeleted then r else r.(isDeleted := true, updatedAt := now)
  }

  /** `UPDATE images SET is_deleted = 1 WHERE id IN ids`. */
  function MarkIn(rows: seq<Row>, ids: set<int>, now: Clock): (o: seq<Row>)
    ensures |o| == |rows|
    ensures forall i :: 0 <= i < |rows| && rows[i].id !in ids ==> o[i] == rows[i]
    ensures forall i :: 0 <= i < |rows| && rows[i].id in ids ==>
              o[i].isDeleted && o[i].(isDeleted := rows[i].isDeleted, updatedAt := rows[i].updatedAt) == rows[i]
    ensures forall i :: 0 <= i < |rows| && rows[i].id in ids && !rows[i].isDeleted ==> o[i].updatedAt == now
    ensures forall i :: 0 <= i < |rows| && rows[i].id in ids && rows[i].isDeleted ==> o[i] == rows[i]
  {
    seq(|rows|, i requires 0 <= i < |rows| => if rows[i].id in ids then MarkDeleted(rows[i], now) else rows[i])
  }

  function IdIn(ids: set<int>): Row -> bool {
    (r: Row) => r.id in ids
  }

  function IdNotIn(ids: set<int>): Row -> bool {
    (r: Row) => r.id !in ids
  }

  /** A changed table and the driver's affected-row count. With mysql2's
      default CLIENT_FOUND_ROWS flag that count is the number of rows the
      WHERE clause matched. */
  datatype Affected = Affected(table: Table, count: nat)

  /** A changed table and whether the single-id statement matched a row. */
  datatype Changed = Changed(table: Table, matched: bool)

  /** `softDelete(id)`: flags the row with that id, whatever its current
      flag, and reports whether a row matched. */
  function SoftDelete(t: Table, id: int, now: Clock): (r: Changed)
    ensures r.matched <==> exists i :: 0 <= i < |t.rows| && t.rows[i].id == id
    ensures r.table.nextId == t.nextId && |r.table.rows| == |t.rows|
    ensures forall i :: 0 <= i < |t.rows| && t.rows[i].id != id ==> r.table.rows[i] == t.rows[i]
    ensures forall i :: 0 <= i < |t.rows| && t.rows[i].id == id ==>
              r.table.rows[i].isDeleted && r.table.rows[i].(isDeleted := false, updatedAt := t.rows[i].updatedAt) == t.rows[i].(isDeleted := false)
    ensures forall i :: 0 <= i < |t.rows| && t.rows[i].id == id && !t.rows[i].isDeleted ==> r.table.rows[i].updatedAt == now
    ensures forall i :: 0 <= i < |t.rows| && t.rows[i].id == id && t.rows[i].isDeleted ==> r.table.rows[i] == t.rows[i]
  {
    var matched := Filter(t.rows, IdIn({id}));
    assert matched != [] <==> exists i :: 0 <= i < |t.rows| && t.rows[i].id == id by {
      if i :| 0 <= i < |t.rows| && t.rows[i].id == id {
        assert multiset(t.rows)[t.rows[i]] > 0;
        assert multiset(matched)[t.rows[i]] > 0;
      }
      if matched != [] {
        assert matched[0] in t.rows by { assert multiset(matched)[matched[0]] > 0; }
      }
    }
    Changed(Table(MarkIn(t.rows, {id}, now), t.nextId), matched != [])
  }

  /** `batchSoftDelete(ids)`: nothing for an empty list; otherwise flags every
      row whose id is listed and returns how many rows matched. */
  function BatchSoftDelete(t: Table, ids: seq<int>, now: Clock): (r: Affected)
    ensures |ids| == 0 ==> r == Affected(t, 0)
    ensures r.table.nextId == t.nextId && |r.table.rows| == |t.rows|
    ensures forall i :: 0 <= i < |t.rows| && t.rows[i].id !in ids ==> r.table.rows[i] == t.rows[i]
    ensures forall i :: 0 <= i < |t.rows| && t.rows[i].id in ids ==>
              && r.table.rows[i].isDeleted
              && r.table.rows[i].(isDeleted := t.rows[i].isDeleted, updatedAt := t.rows[i].updatedAt) == t.rows[i]
    ensures forall i :: 0 <= i < |t.rows| && t.rows[i].id in ids && !t.rows[i].isDeleted ==> r.table.rows[i].updatedAt == now
    ensures forall i :: 0 <= i < |t.rows| && t.rows[i].id in ids && t.rows[i].isDeleted ==> r.table.rows[i] == t.rows[i]
    ensures |ids| > 0 && UniqueIds(t.rows) ==> r.count == |(set x | x in ids) * Ids(t.rows)|
  {
    if |ids| == 0 then Affected(t, 0)
    else
      var s := set x | x in ids;
      CountMatchedUniqueIds(t.rows, s);
      Affected(Table(MarkIn(t.rows, s, now), t.nextId), |Filter(t.rows, IdIn(s))|)
  }

  ghost predicate UniqueIds(rows: seq<Row>) {
    forall i, j :: 0 <= i < j < |rows| ==> rows[i].id != rows[j].id
  }

  /** With unique ids, an `id IN s` clause matches one row per id of `s`
      that the table holds. */
  lemma {:induction false} CountMatchedUniqueIds(rows: seq<Row>, s: set<int>)
    ensures UniqueIds(rows) ==> |Filter(rows, IdIn(s))| == |s * Ids(rows)|
  {
    if |rows| == 0 {
      assert Ids(rows) == {};
    } else if UniqueIds(rows) {
      var r0, rest := rows[0], rows[1..];
      assert rows == [r0] + rest;
      assert UniqueIds(rest) by {
        forall i, j | 0 <= i < j < |rest| ensures rest[i].id != rest[j].id {
          assert rest[i] == rows[i + 1] && rest[j] == rows[j + 1];
        }
      }
      CountMatchedUniqueIds(rest, s);
      FilterAppend([r0], rest, IdIn(s));
      IdsCons(r0, rest);
      IntersectAddedElement(s, r0.id, Ids(rest));
    }
  }

  /** The ids of `[r0] + rest`, where `r0` carries an id `rest` lacks when
      ids are unique. */
  lemma IdsCons(r0: Row, rest: seq<Row>)
    ensures Ids([r0] + rest) == {r0.id as int} + Ids(rest)
    ensures UniqueIds([r0] + rest) ==> r0.id as int !in Ids(rest)
  {
    var rows := [r0] + rest;
    if UniqueIds(rows) {
      forall k | 0 <= k < |rest| ensures rest[k].id != r0.id {
        assert rows[0] == r0 && rows[k + 1] == rest[k];
        assert rows[0].id != rows[k + 1].id;
      }
    }
  }

  lemma IntersectAddedElement(s: set<int>, x: int, b: set<int>)
    requires x !in b
    ensures |s * ({x} + b)| == (if x in s then 1 else 0) + |s * b|
  {
    var a := s * {x};
    assert s * ({x} + b) == a + s * b;
    assert a !! s * b;
    if x in s {
      assert a == {x};
    } else {
      assert a == {};
    }
  }

  /** `hardDelete(id)`: removes the row with that id and reports whether one
      was removed. */
  function HardDelete(t: Table, id: int): (r: Changed)
    ensures r.table.nextId == t.nextId
    ensures forall x :: multiset(r.table.rows)[x] == if x.id == id then 0 else multiset(t.rows)[x]
    ensures r.matched <==> |r.table.rows| < |t.rows|
  {
    var kept := Filter(t.rows, IdNotIn({id}));
    Changed(Table(kept, t.nextId), |kept| < |t.rows|)
  }

  /** `batchHardDelete(ids)`: nothing for an empty list; otherwise removes
      every row whose id is listed and returns how many were removed. */
  function BatchHardDelete(t: Table, ids: seq<int>): (r: Affected)
    ensures |ids| == 0 ==> r == Affected(t, 0)
    ensures r.table.nextId == t.nextId
    ensures |ids| > 0 ==> forall x :: multiset(r.table.rows)[x] == if x.id in ids then 0 else multiset(t.rows)[x]
    ensures r.count + |r.table.rows| == |t.rows|
  {
    if |ids| == 0 then Affected(t, 0)
    else
      var kept := Filter(t.rows, IdNotIn(set x | x in ids));
      Affected(Table(kept, t.nextId), |t.rows| - |kept|)
  }

  /** `getSoftDeleted()`: every flagged row, repaired, in table order. */
  function GetSoftDeleted(t: Table, c: Codecs): (r: seq<Row>)
    ensures forall x :: x in r ==> x.isDeleted
    ensures |r| == |Filter(t.rows, IsTombstone)|
    ensures forall i :: 0 <= i < |t.rows| && t.rows[i].isDeleted ==> FixObjectEncoding(t.rows[i], c) in r
  {
    var flagged := Filter(t.rows, IsTombstone);
    assert forall i :: 0 <= i < |t.rows| && t.rows[i].isDeleted ==> t.rows[i] in flagged by {
      forall i | 0 <= i < |t.rows| && t.rows[i].isDeleted ensures t.rows[i] in flagged {
        assert multiset(t.rows)[t.rows[i]] > 0;
      }
    }
    var r := FixArrayEncoding(flagged, c);
    assert forall x :: x in r ==> x.isDeleted by {
      forall x | x in r ensures x.isDeleted {
        var i :| 0 <= i < |r| && r[i] == x;
        assert flagged[i] in flagged;
      }
    }
    assert forall i :: 0 <= i < |t.rows| && t.rows[i].isDeleted ==> FixObjectEncoding(t.rows[i], c) in r by {
      forall i | 0 <= i < |t.rows| && t.rows[i].isDeleted ensures FixObjectEncoding(t.rows[i], c) in r {
        var k :| 0 <= k < |flagged| && flagged[k] == t.rows[i];
        assert r[k] == FixObjectEncoding(t.rows[i], c);
      }
    }
    r
  }

  function IsTombstone(r: Row): bool {
    r.isDeleted
  }

  /** `Math.ceil(total / pageSize)` pages hold every row and no page is
      wasted: the last page starts before the end. */
  lemma TotalPagesBounds(total: nat, pageSize: nat)
    requires pageSize >= 1
    ensures TotalPages(total, pageSize) * pageSize >= total
    ensures total > 0 ==> (TotalPages(total, pageSize) - 1) * pageSize < total
    ensures total == 0 <==> TotalPages(total, pageSize) == 0
  {
    var q := TotalPages(total, pageSize);
    var m := (total + pageSize - 1) % pageSize;
    assert q * pageSize + m == total + pageSize - 1;
    assert (q - 1) * pageSize == q * pageSize - pageSize;
  }

  /** Pages 1 through `k`, one after the other. */
  function Pages(s: seq<Row>, k: nat, pageSize: nat): seq<Row> {
    if k == 0 then [] else Pages(s, k - 1, pageSize) + PageOf(s, k, pageSize)
  }

  /** The first `k` pages are exactly the first `k * pageSize` rows: pages
      neither overlap nor skip a row. */
  lemma {:induction false} PagesArePrefix(s: seq<Row>, k: nat, pageSize: nat)
    requires pageSize >= 1
    ensures Pages(s, k, pageSize) == s[..Min(k * pageSize, |s|)]
  {
    if k > 0 {
      PagesArePrefix(s, k - 1, pageSize);
      var offset := (k - 1) * pageSize;
      assert k * pageSize == offset + pageSize;
      if offset < |s| {
        assert s[..offset] + s[offset..Min(offset + pageSize, |s|)] == s[..Min(offset + pageSize, |s|)];
      }
    }
  }

  /** Walking pages 1 through `totalPages` of `getList` visits every listed
      row exactly once, in display order. */
  lemma PagesCoverListing(t: Table, f: Filters, pageSize: nat)
    requires pageSize >= 1
    ensures Pages(Listing(t, f), TotalPages(|Listing(t, f)|, pageSize), pageSize) == Listing(t, f)
  {
    var s := Listing(t, f);
    TotalPagesBounds(|s|, pageSize);
    PagesArePrefix(s, TotalPages(|s|, pageSize), pageSize);
  }

  /** A page holds `pageSize` rows, except the last, which holds the rest;
      pages after the last are empty. */
  lemma PageLength(s: seq<Row>, page: nat, pageSize: nat)
    requires page >= 1 && pageSize >= 1
    ensures var offset := (page - 1) * pageSize;
            |PageOf(s, page, pageSize)| == if offset >= |s| then 0 else Min(pageSize, |s| - offset)
    ensures page > TotalPages(|s|, pageSize) ==> PageOf(s, page, pageSize) == []
  {
    TotalPagesBounds(|s|, pageSize);
    var q := TotalPages(|s|, pageSize);
    if page > q {
      MulMonotone(q, page - 1, pageSize);
    }
  }

  lemma MulMonotone(a: nat, b: nat, c: nat)
    requires a <= b
    ensures a * c <= b * c
  {
    assert b * c == a * c + (b - a) * c;
  }

  /** No two live rows share a content hash. The store does not enforce
      this; the upload controller keeps it. */
  ghost predicate LiveHashesUnique(t: Table) {
    forall i, j ::
      (0 <= i < |t.rows| && 0 <= j < |t.rows| && !t.rows[i].isDeleted && !t.rows[j].isDeleted
       && t.rows[i].fileHash == t.rows[j].fileHash) ==> i == j
  }

  /** Soft-deleting keeps every key, name and hash in place and only turns
      rows from live to deleted, so the schema facts and live-hash
      uniqueness survive it. */
  lemma MarkInPreserves(t: Table, ids: set<int>, now: Clock)
    ensures Valid(t) ==> Valid(Table(MarkIn(t.rows, ids, now), t.nextId))
    ensures LiveHashesUnique(t) ==> LiveHashesUnique(Table(MarkIn(t.rows, ids, now), t.nextId))
  {
    var o := MarkIn(t.rows, ids, now);
    assert forall i :: 0 <= i < |o| ==> Tombstoned(t.rows[i], o[i]) by {
      forall i | 0 <= i < |o| ensures Tombstoned(t.rows[i], o[i]) {
        if t.rows[i].id in ids {
          assert o[i].(isDeleted := t.rows[i].isDeleted, updatedAt := t.rows[i].updatedAt) == t.rows[i];
        }
      }
    }
  }

  /** After `softDelete(id)` no live lookup finds the id, yet the row that
      had it is still there. */
  lemma SoftDeleteHides(t: Table, id: int, now: Clock, c: Codecs, k: nat)
    requires k < |t.rows| && t.rows[k].id == id
    ensures FindById(SoftDelete(t, id, now).table, id, c).None?
    ensures id in Ids(SoftDelete(t, id, now).table.rows)
  {
    var t' := SoftDelete(t, id, now).table;
    assert forall i :: 0 <= i < |t'.rows| ==> !LiveMatch(ById(id), t'.rows[i]);
    assert t'.rows[k] in t'.rows;
  }

  /** `softDelete` keeps the schema facts and live-hash uniqueness. */
  lemma SoftDeletePreserves(t: Table, id: int, now: Clock)
    ensures Valid(t) ==> Valid(SoftDelete(t, id, now).table)
    ensures LiveHashesUnique(t) ==> LiveHashesUnique(SoftDelete(t, id, now).table)
  {
    MarkInPreserves(t, {id}, now);
  }

  /** `batchSoftDelete` keeps the schema facts and live-hash uniqueness. */
  lemma BatchSoftDeletePreserves(t: Table, ids: seq<int>, now: Clock)
    ensures Valid(t) ==> Valid(BatchSoftDelete(t, ids, now).table)
    ensures LiveHashesUnique(t) ==> LiveHashesUnique(BatchSoftDelete(t, ids, now).table)
  {
    MarkInPreserves(t, (set x | x in ids), now);
  }

  /** `after` is `before` with at most its flag raised and its update time
      moved. */
  predicate Tombstoned(before: Row, after: Row) {
    && after.id == before.id
    && after.filename == before.filename
    && after.fileHash == before.fileHash
    && (!after.isDeleted ==> !before.isDeleted)
  }

  /** The store itself accepts a second live row for a hash that already
      has one: `create` fails only on a taken filename. */
  lemma CreateIgnoresHash(t: Table, img: NewImage, now: Clock, i: nat)
    requires i < |t.rows| && !t.rows[i].isDeleted && t.rows[i].fileHash == img.fileHash
    requires !FilenameTaken(t.rows, img.filename) && t.nextId <= MAX_ID
    ensures Create(t, img, now).Ok?
    ensures !LiveHashesUnique(Create(t, img, now).value.table)
  {
    var t' := Create(t, img, now).value.table;
    assert t'.rows[i] == t.rows[i];
    assert t'.rows[|t.rows|].fileHash == img.fileHash && !t'.rows[|t.rows|].isDeleted;
  }
}

=== FILE: platform.dfy ===
/** What the core borrows from its runtime: bytes, a reading of the wall
    clock, and Node's string codecs. None of these is implemented here; the
    operations that need them take them as parameters. */
module Platform {
  import opened Wrappers

  newtype byte = x: int | 0 <= x < 256

  /** One reading of `new Date()` (or of MySQL's `NOW()`): the full year,
      the 0-based month index of `getMonth()`, the day of month and the time
      of day. */
  datatype Clock = Clock(year: nat, monthIndex: nat, date: nat, hours: nat, minutes: nat, seconds: nat)

  /** The ranges a JavaScript `Date` guarantees for its fields. */
  predicate ValidClock(c: Clock) {
    c.monthIndex < 12 && 1 <= c.date <= 31 && c.hours < 24 && c.minutes < 60 && c.seconds < 60
  }

  /** A number that orders valid readings chronologically (used for
      `ORDER BY upload_time`). */
  function Instant(c: Clock): int {
    ((((c.year * 12 + c.monthIndex) * 32 + c.date) * 24 + c.hours) * 60 + c.minutes) * 60 + c.seconds
  }

  /** Node's string reinterpretations, each `None` when the call throws:
      - decodeUri:     `decodeURIComponent(s)`
      - binaryToUtf8:  `Buffer.from(s, 'binary').toString('utf8')`
      - latin1ToUtf8:  `Buffer.from(s, 'latin1').toString('utf8')`
      - utf8ViaBinary: `Buffer.from(Buffer.from(s, 'utf8').toString('binary'), 'binary').toString('utf8')`
      - hexToUtf8:     `Buffer.from(s, 'hex').toString('utf8')`
      - base64ToUtf8:  `Buffer.from(s, 'base64').toString('utf8')`
      - utf8ToUtf8:    `Buffer.from(s, 'utf8').toString('utf8')` */
  datatype Codecs = Codecs(
    decodeUri: string -> Option<string>,
    binaryToUtf8: string -> Option<string>,
    latin1ToUtf8: string -> Option<string>,
    utf8ViaBinary: string -> Option<string>,
    hexToUtf8: string -> Option<string>,
    base64ToUtf8: string -> Option<string>,
    utf8ToUtf8: string -> Option<string>)
}

=== FILE: s3_service.dfy ===
/** Storage-key derivation of `src/utils/s3Service.js`. The S3 client calls
    of that file are network I/O and are not modelled; the content digest is
    a parameter of the callers. */
module S3Service {
  import opened Wrappers
  import opened Text
  import opened Platform

  /** `name.split('.').pop()`: the text after the last `.`, or the whole
      name when it has no `.`. */
  function Extension(name: string): (ext: string)
    ensures '.' !in ext
    ensures '.' !in name ==> ext == name
    ensures '.' in name ==> |ext| < |name| && name[|name| - |ext| - 1] == '.'
    ensures name[|name| - |ext|..] == ext
  {
    match LastIndexOf(name, '.')
    case None => name
    case Some(j) => name[j + 1..]
  }

  /** Appending `.ext` to anything makes `ext` the extension again. */
  lemma ExtensionAfterDot(stem: string, ext: string)
    requires '.' !in ext
    ensures Extension(stem + "." + ext) == ext
  {
    LastIndexOfSeparator(stem, '.', ext);
    assert (stem + "." + ext)[|stem| + 1..] == ext;
  }

  /** `fileHash.substring(0, 8)`. */
  function HashPrefix(fileHash: string): (p: string)
    ensures |p| == if |fileHash| < 8 then |fileHash| else 8
    ensures p <= fileHash
  {
    if |fileHash| < 8 then fileHash else fileHash[..8]
  }

  /** `String(now.getMonth() + 1).padStart(2, '0')`. */
  function MonthComponent(now: Clock): string {
    Pad2(now.monthIndex + 1)
  }

  /** `${hours}${minutes}${seconds}`, each padded to two digits. */
  function TimeComponent(now: Clock): string {
    Pad2(now.hours) + Pad2(now.minutes) + Pad2(now.seconds)
  }

  /** `generateUniqueFilename(originalName, fileHash)` read at clock `now`:
      `<year>/<MM>/<hash[0..8)>_<HHmmss>.<ext>`. The source also formats the
      day of month but never uses it. */
  function GenerateUniqueFilename(originalName: string, fileHash: string, now: Clock): (key: string)
    ensures Extension(key) == Extension(originalName)
  {
    var ext := Extension(originalName);
    var stem := Digits(now.year) + "/" + MonthComponent(now) + "/" + HashPrefix(fileHash) + "_" + TimeComponent(now);
    ExtensionAfterDot(stem, ext);
    stem + "." + ext
  }

  /** The components a storage key is built from. */
  datatype KeyParts = KeyParts(year: string, month: string, hashPrefix: string, time: string, ext: string)

  /** Splits a key back into its components: the year runs to the first `/`,
      the month is the next two characters and is followed by `/`, the
      extension follows the last `.`, the time is the six characters before
      that `.`, preceded by `_`, and the hash prefix is what lies between. */
  function ParseKey(key: string): Option<KeyParts> {
    match FirstIndexOf(key, '/')
    case None => None
    case Some(i) =>
      match LastIndexOf(key, '.')
      case None => None
      case Some(j) => SplitAt(key, i, j)
  }

  /** The components of `key`, given the index `i` of its first `/` and `j`
      of its last `.`. */
  function SplitAt(key: string, i: nat, j: nat): Option<KeyParts>
    requires i < |key| && j < |key|
  {
    if i + 11 <= j && key[i + 3] == '/' && key[j - 7] == '_' then
      Some(KeyParts(key[..i], key[i + 1..i + 3], key[i + 4..j - 7], key[j - 6..j], key[j + 1..]))
    else None
  }

  /** The month is 1-based and two digits; the time component is six digits,
      two each for hours, minutes and seconds. */
  lemma ComponentsShape(now: Clock)
    requires ValidClock(now)
    ensures MonthComponent(now) == [DigitChar((now.monthIndex + 1) / 10), DigitChar((now.monthIndex + 1) % 10)]
    ensures 1 <= now.monthIndex + 1 <= 12
    ensures TimeComponent(now) == [DigitChar(now.hours / 10), DigitChar(now.hours % 10),
                                   DigitChar(now.minutes / 10), DigitChar(now.minutes % 10),
                                   DigitChar(now.seconds / 10), DigitChar(now.seconds % 10)]
  {
    Pad2Digits(now.monthIndex + 1);
    Pad2Digits(now.hours);
    Pad2Digits(now.minutes);
    Pad2Digits(now.seconds);
  }

  /** Every key has exactly the shape `<year>/<MM>/<prefix>_<HHmmss>.<ext>`:
      parsing a generated key recovers each component. */
  lemma KeyRoundTrip(originalName: string, fileHash: string, now: Clock)
    requires ValidClock(now)
    ensures ParseKey(GenerateUniqueFilename(originalName, fileHash, now))
         == Some(KeyParts(Digits(now.year), MonthComponent(now), HashPrefix(fileHash), TimeComponent(now), Extension(originalName)))
  {
    ComponentsShape(now);
    var y := Digits(now.year);
    assert '/' !in y by {
      assert forall k :: 0 <= k < |y| ==> y[k] != '/';
    }
    KeyPositions(y, MonthComponent(now), HashPrefix(fileHash), TimeComponent(now), Extension(originalName));
  }

  /** Where each component sits in `y/m/p_t.e`, given the fixed widths and
      that neither the year holds a `/` nor the extension a `.`. */
  lemma KeyPositions(y: string, m: string, p: string, t: string, e: string)
    requires |m| == 2 && |t| == 6 && '/' !in y && '.' !in e
    ensures ParseKey(y + "/" + m + "/" + p + "_" + t + "." + e) == Some(KeyParts(y, m, p, t, e))
  {
    var key := y + "/" + m + "/" + p + "_" + t + "." + e;
    var i, j := |y|, |y| + |p| + 11;
    assert key[..i] == y;
    assert key[i + 1..i + 3] == m;
    assert key[i + 3] == '/';
    assert key[i + 4..j - 7] == p;
    assert key[j - 7] == '_';
    assert key[j - 6..j] == t;
    assert key[j + 1..] == e;
    FirstIndexAt(key, '/', i);
    LastIndexAt(key, '.', j);
  }

  /** The day of month never reaches the key: two readings that differ only
      in the day give the same key. */
  lemma KeyIgnoresDay(originalName: string, fileHash: string, now: Clock, day: nat)
    ensures GenerateUniqueFilename(originalName, fileHash, now.(date := day))
         == GenerateUniqueFilename(originalName, fileHash, now)
  {
  }
}

=== FILE: seqs.dfy ===
/** Generic sequence helpers shared by the table model. */
module Seqs {

  function Min(a: int, b: int): int {
    if a <= b then a else b
  }

  /** The elements of `s` that satisfy `p`, in their original order. */
  function Filter<T(!new)>(s: seq<T>, p: T -> bool): (r: seq<T>)
    ensures |r| <= |s|
    ensures forall x :: x in r ==> p(x)
    ensures forall x :: multiset(r)[x] == if p(x) then multiset(s)[x] else 0
  {
    if |s| == 0 then []
    else
      assert s == [s[0]] + s[1..];
      if p(s[0]) then [s[0]] + Filter(s[1..], p) else Filter(s[1..], p)
  }

  /** Filtering distributes over concatenation. */
  lemma {:induction false} FilterAppend<T(!new)>(a: seq<T>, b: seq<T>, p: T -> bool)
    ensures Filter(a + b, p) == Filter(a, p) + Filter(b, p)
  {
    if |a| == 0 {
      assert a + b == b;
    } else {
      assert (a + b)[1..] == a[1..] + b;
      FilterAppend(a[1..], b, p);
    }
  }

  /** Filtering a sequence extended by one element. */
  lemma FilterSnoc<T(!new)>(a: seq<T>, x: T, p: T -> bool)
    ensures Filter(a + [x], p) == Filter(a, p) + (if p(x) then [x] else [])
  {
    FilterAppend(a, [x], p);
    assert [x][1..] == [];
  }
}

=== FILE: text.dfy ===
/** String helpers: decimal rendering, padding, searching. Strings are
    `seq<char>`: Unicode scalar values stand for JavaScript's UTF-16 code
    units. The two differ only outside the Basic Multilingual Plane, where one
    scalar value is two code units, and a lone surrogate has no `char`. */
module Text {
  import opened Wrappers

  predicate IsDigit(c: char) {
    '0' <= c <= '9'
  }

  function DigitChar(d: nat): (c: char)
    requires d < 10
    ensures IsDigit(c)
  {
    (48 + d) as char
  }

  /** Decimal rendering of a natural number, as JavaScript's `String(n)`. */
  function Digits(n: nat): (s: string)
    ensures 1 <= |s|
    ensures forall i :: 0 <= i < |s| ==> IsDigit(s[i])
  {
    if n < 10 then [DigitChar(n)] else Digits(n / 10) + [DigitChar(n % 10)]
  }

  function DigitOf(c: char): nat
    requires IsDigit(c)
  {
    c as int - 48
  }

  /** The number a string of decimal digits denotes. */
  function DecimalValue(s: string): nat
    requires forall i :: 0 <= i < |s| ==> IsDigit(s[i])
  {
    if |s| == 0 then 0
    else DecimalValue(s[..|s| - 1]) * 10 + DigitOf(s[|s| - 1])
  }

  /** Reading back a rendered number gives the number. */
  lemma {:induction false} DigitsRoundTrip(n: nat)
    ensures DecimalValue(Digits(n)) == n
  {
    if n >= 10 {
      var s := Digits(n);
      assert s[..|s| - 1] == Digits(n / 10);
      DigitsRoundTrip(n / 10);
    }
  }

  function Repeat(c: char, n: nat): (s: string)
    ensures |s| == n
    ensures forall i :: 0 <= i < n ==> s[i] == c
  {
    if n == 0 then [] else [c] + Repeat(c, n - 1)
  }

  /** JavaScript's `s.padStart(width, fill)` with a one-character fill. */
  function PadStart(s: string, width: nat, fill: char): string {
    if |s| >= width then s else Repeat(fill, width - |s|) + s
  }

  /** `String(n).padStart(2, '0')`. */
  function Pad2(n: nat): string {
    PadStart(Digits(n), 2, '0')
  }

  /** Below 100, the two-character rendering is exactly the tens digit
      followed by the units digit. */
  lemma Pad2Digits(n: nat)
    requires n < 100
    ensures Pad2(n) == [DigitChar(n / 10), DigitChar(n % 10)]
  {
    if n >= 10 {
      assert Digits(n / 10) == [DigitChar(n / 10)];
    }
  }

  /** JavaScript's `v || d` on an optional string field: an absent or empty
      value is falsy and yields the default. */
  function OrDefault(v: Option<string>, d: string): (r: string)
    ensures r == d || (v == Some(r) && r != "")
    ensures v.Some? && v.value != "" ==> r == v.value
  {
    if v.Some? && v.value != "" then v.value else d
  }

  /** JavaScript truthiness of an optional string. */
  predicate Truthy(v: Option<string>) {
    v.Some? && v.value != ""
  }

  /** `s.includes(sub)`: `sub` occurs somewhere in `s`. */
  predicate Contains(s: string, sub: string)
    decreases |s|
  {
    sub <= s || (|s| > 0 && Contains(s[1..], sub))
  }

  /** Index of the first occurrence of `x` in `s`. */
  function FirstIndexOf(s: string, x: char): (r: Option<nat>)
    ensures r.None? <==> x !in s
    ensures r.Some? ==> r.value < |s| && s[r.value] == x && x !in s[..r.value]
  {
    if |s| == 0 then None
    else if s[0] == x then Some(0)
    else
      match FirstIndexOf(s[1..], x)
      case None => None
      case Some(i) =>
        assert s[..i + 1] == [s[0]] + s[1..][..i];
        Some(i + 1)
  }

  /** Index of the last occurrence of `x` in `s`. */
  function LastIndexOf(s: string, x: char): (r: Option<nat>)
    ensures r.None? <==> x !in s
    ensures r.Some? ==> r.value < |s| && s[r.value] == x && x !in s[r.value + 1..]
  {
    if |s| == 0 then None
    else if s[|s| - 1] == x then Some(|s| - 1)
    else
      assert s == s[..|s| - 1] + [s[|s| - 1]];
      match LastIndexOf(s[..|s| - 1], x)
      case None => None
      case Some(i) =>
        assert s[i + 1..] == s[..|s| - 1][i + 1..] + [s[|s| - 1]];
        Some(i)
  }

  /** The first `x` of `a + [x] + b` is the separator when `a` has none. */
  lemma {:induction false} FirstIndexOfSeparator(a: string, x: char, b: string)
    requires x !in a
    ensures FirstIndexOf(a + [x] + b, x) == Some(|a|)
  {
    if |a| > 0 {
      assert (a + [x] + b)[1..] == a[1..] + [x] + b;
      FirstIndexOfSeparator(a[1..], x, b);
    }
  }

  /** The last `x` of `a + [x] + b` is the separator when `b` has none. */
  lemma {:induction false} LastIndexOfSeparator(a: string, x: char, b: string)
    requires x !in b
    ensures LastIndexOf(a + [x] + b, x) == Some(|a|)
  {
    var s := a + [x] + b;
    if |b| > 0 {
      assert s[..|s| - 1] == a + [x] + b[..|b| - 1];
      LastIndexOfSeparator(a, x, b[..|b| - 1]);
    }
  }

  /** `FirstIndexOfSeparator` for a string known only by its pieces. */
  lemma FirstIndexAt(s: string, x: char, i: nat)
    requires i < |s| && s[i] == x && x !in s[..i]
    ensures FirstIndexOf(s, x) == Some(i)
  {
    assert s == s[..i] + [x] + s[i + 1..];
    FirstIndexOfSeparator(s[..i], x, s[i + 1..]);
  }

  /** `LastIndexOfSeparator` for a string known only by its pieces. */
  lemma LastIndexAt(s: string, x: char, j: nat)
    requires j < |s| && s[j] == x && x !in s[j + 1..]
    ensures LastIndexOf(s, x) == Some(j)
  {
    assert s == s[..j] + [x] + s[j + 1..];
    LastIndexOfSeparator(s[..j], x, s[j + 1..]);
  }
}

=== FILE: upload.dfy ===
/** The `calculateFileHash` middleware of `src/middleware/upload.js`: it
    stores the content digest of the uploaded file on the request and
    replaces the file's possibly mis-encoded name by a recovered one. */
module UploadMiddleware {
  import opened Wrappers
  import opened Text
  import opened Platform
  import opened Http

  /** What multer leaves in `req.file`. */
  datatype UploadedFile = UploadedFile(originalname: string, mimetype: string, size: nat, buffer: seq<byte>)

  /** The optional multipart text fields the middleware reads. */
  datatype Body = Body(encodingMethod: Option<string>, originalFilename: Option<string>)

  /** The parts of the Express request the upload path touches. */
  datatype Request = Request(file: Option<UploadedFile>, body: Body, fileHash: Option<string>)

  /** A middleware either answers the request or passes it on via `next()`. */
  datatype Outcome = Respond(response: Response) | Next(request: Request)

  predicate IsHexChar(ch: char) {
    '0' <= ch <= '9' || 'a' <= ch <= 'f' || 'A' <= ch <= 'F'
  }

  predicate IsBase64Char(ch: char) {
    'A' <= ch <= 'Z' || 'a' <= ch <= 'z' || '0' <= ch <= '9' || ch == '+' || ch == '/'
  }

  /** `/^[0-9a-fA-F]+$/.test(s)`. */
  predicate IsHexName(s: string) {
    |s| > 0 && forall i :: 0 <= i < |s| ==> IsHexChar(s[i])
  }

  /** Number of `=` characters that end `s`. */
  function TrailingPads(s: string): (k: nat)
    ensures k <= |s|
    ensures forall i :: |s| - k <= i < |s| ==> s[i] == '='
    ensures k < |s| ==> s[|s| - k - 1] != '='
  {
    if |s| == 0 || s[|s| - 1] != '=' then 0 else TrailingPads(s[..|s| - 1]) + 1
  }

  /** `/^[A-Za-z0-9+\/]*={0,2}$/.test(s)`: base64 alphabet characters
      followed by at most two `=`. Since `=` is outside the alphabet, the
      padding is exactly the run of trailing `=`. */
  predicate IsBase64Name(s: string) {
    var k := TrailingPads(s);
    k <= 2 && forall i :: 0 <= i < |s| - k ==> IsBase64Char(s[i])
  }

  /** `s` is base64-alphabet characters followed by exactly `k` `=`. */
  predicate SplitsAsBase64(s: string, k: nat) {
    && k <= |s|
    && (forall i :: 0 <= i < |s| - k ==> IsBase64Char(s[i]))
    && (forall i :: |s| - k <= i < |s| ==> s[i] == '=')
  }

  /** The guard agrees with the regular expression read literally: some way
      of splitting the name into an alphabet part and zero to two pads. */
  lemma Base64GuardMatchesPattern(s: string)
    ensures IsBase64Name(s) <==> SplitsAsBase64(s, 0) || SplitsAsBase64(s, 1) || SplitsAsBase64(s, 2)
  {
    var k := TrailingPads(s);
    if IsBase64Name(s) {
      assert SplitsAsBase64(s, k);
    }
    forall j: nat | j <= 2 && SplitsAsBase64(s, j) ensures IsBase64Name(s) {
      assert j < |s| ==> s[|s| - j - 1] != '=';
      assert k == j;
    }
  }

  /** An assignment inside `try`: the decoded value replaces the current
      name, unless the decoder throws. */
  function Try(attempt: Option<string>, current: string): string {
    match attempt
    case Some(v) => v
    case None => current
  }

  /** The branch taken for the `latin1` hint: latin1→utf8, and only when that
      throws, URL decoding and then binary→utf8. */
  function Latin1Branch(raw: string, c: Codecs): string {
    match c.latin1ToUtf8(raw)
    case Some(v) => v
    case None =>
      var n1 := Try(c.decodeUri(raw), raw);
      if n1 == raw then Try(c.binaryToUtf8(raw), n1) else n1
  }

  /** The branch taken for every other hint, written as the source writes it:
      each step runs only while the name still equals the raw input. */
  function MultiMethodChain(raw: string, c: Codecs): string {
    var n1 := Try(c.decodeUri(raw), raw);
    var n2 := if n1 == raw then Try(c.binaryToUtf8(raw), n1) else n1;
    var n3 := if n2 == raw then Try(c.latin1ToUtf8(raw), n2) else n2;
    var n4 := if n3 == raw then Try(c.utf8ViaBinary(raw), n3) else n3;
    var n5 := if n4 == raw && IsHexName(raw) then Try(c.hexToUtf8(raw), n4) else n4;
    var n6 := if n5 == raw && IsBase64Name(raw) then Try(c.base64ToUtf8(raw), n5) else n5;
    n6
  }

  /** The chain as data: every candidate decoding of the raw name in the
      order they are tried, a guarded-out decoder counting as no candidate. */
  function Candidates(raw: string, c: Codecs): seq<Option<string>> {
    [ c.decodeUri(raw),
      c.binaryToUtf8(raw),
      c.latin1ToUtf8(raw),
      c.utf8ViaBinary(raw),
      if IsHexName(raw) then c.hexToUtf8(raw) else None,
      if IsBase64Name(raw) then c.base64ToUtf8(raw) else None ]
  }

  /** A candidate that leaves the name as it was: it threw, was guarded out,
      or decoded to the raw text itself. */
  predicate Unchanged(o: Option<string>, raw: string) {
    o.None? || o.value == raw
  }

  /** The first candidate that differs from the raw name. */
  function FirstDiffering(raw: string, cs: seq<Option<string>>): (r: Option<string>)
    ensures r.None? <==> forall i :: 0 <= i < |cs| ==> Unchanged(cs[i], raw)
    ensures r.Some? ==> r.value != raw
    ensures r.Some? ==> exists i :: 0 <= i < |cs| && cs[i] == r && forall j :: 0 <= j < i ==> Unchanged(cs[j], raw)
  {
    if |cs| == 0 then None
    else if !Unchanged(cs[0], raw) then cs[0]
    else
      var r := FirstDiffering(raw, cs[1..]);
      FirstDifferingShift(raw, cs, r);
      r
  }

  /** A witness in `cs[1..]` is a witness in `cs` one place later, when
      `cs[0]` leaves the name unchanged. */
  lemma FirstDifferingShift(raw: string, cs: seq<Option<string>>, r: Option<string>)
    requires |cs| > 0 && Unchanged(cs[0], raw)
    requires r.Some? ==> exists i :: 0 <= i < |cs[1..]| && cs[1..][i] == r && forall j :: 0 <= j < i ==> Unchanged(cs[1..][j], raw)
    ensures r.Some? ==> exists i :: 0 <= i < |cs| && cs[i] == r && forall j :: 0 <= j < i ==> Unchanged(cs[j], raw)
  {
    if r.Some? {
      var i :| 0 <= i < |cs[1..]| && cs[1..][i] == r && forall j :: 0 <= j < i ==> Unchanged(cs[1..][j], raw);
      assert cs[i + 1] == r;
      assert forall j :: 0 <= j < i + 1 ==> Unchanged(cs[j], raw) by {
        forall j | 0 <= j < i + 1 ensures Unchanged(cs[j], raw) {
          if j > 0 {
            assert cs[j] == cs[1..][j - 1];
          }
        }
      }
    }
  }

  /** Unfolding `FirstDiffering` one candidate at a time. */
  lemma FirstDifferingStep(raw: string, cs: seq<Option<string>>, k: nat)
    requires k <= |cs|
    ensures FirstDiffering(raw, cs[k..])
         == if k == |cs| then None
            else if !Unchanged(cs[k], raw) then cs[k]
            else FirstDiffering(raw, cs[k + 1..])
  {
    if k < |cs| {
      assert cs[k..][1..] == cs[k + 1..];
    }
  }

  /** Where the chain ends from a current name `n` with candidates `k..`
      still to try: a changed name is kept, the raw name falls through to
      the first differing candidate. */
  function ChainTarget(raw: string, cs: seq<Option<string>>, k: nat, n: string): string
    requires k <= |cs|
  {
    if n == raw then FirstDiffering(raw, cs[k..]).GetOr(raw) else n
  }

  /** One link of the chain (`if (name === raw) try { name = decode(raw) }`)
      keeps the place the chain ends. */
  lemma ChainStep(raw: string, cs: seq<Option<string>>, k: nat, n: string)
    requires k < |cs|
    ensures ChainTarget(raw, cs, k, n) == ChainTarget(raw, cs, k + 1, Link(raw, n, cs[k]))
  {
    FirstDifferingStep(raw, cs, k);
  }

  /** One link of the chain: the name moves to the candidate only while it
      is still the raw name. */
  function Link(raw: string, n: string, o: Option<string>): string {
    if n == raw then Try(o, n) else n
  }

  /** Six links over six candidates end where the first differing candidate
      says. */
  lemma SixLinks(raw: string, cs: seq<Option<string>>)
    requires |cs| == 6
    ensures Link(raw, Link(raw, Link(raw, Link(raw, Link(raw, Link(raw, raw, cs[0]), cs[1]), cs[2]), cs[3]), cs[4]), cs[5])
         == FirstDiffering(raw, cs).GetOr(raw)
  {
    assert cs[0..] == cs;
    var n1 := Link(raw, raw, cs[0]);
    var n2 := Link(raw, n1, cs[1]);
    var n3 := Link(raw, n2, cs[2]);
    var n4 := Link(raw, n3, cs[3]);
    var n5 := Link(raw, n4, cs[4]);
    var n6 := Link(raw, n5, cs[5]);
    ChainStep(raw, cs, 0, raw);
    ChainStep(raw, cs, 1, n1);
    ChainStep(raw, cs, 2, n2);
    ChainStep(raw, cs, 3, n3);
    ChainStep(raw, cs, 4, n4);
    ChainStep(raw, cs, 5, n5);
    FirstDifferingStep(raw, cs, 6);
  }

  /** The nested conditionals of the source and the data-driven reading
      agree: the chain yields the first differing candidate, or the raw name
      when there is none. */
  lemma ChainIsFirstDiffering(raw: string, c: Codecs)
    ensures MultiMethodChain(raw, c) == FirstDiffering(raw, Candidates(raw, c)).GetOr(raw)
  {
    var cs := Candidates(raw, c);
    var n1 := Link(raw, raw, cs[0]);
    var n2 := Link(raw, n1, cs[1]);
    var n3 := Link(raw, n2, cs[2]);
    var n4 := Link(raw, n3, cs[3]);
    var n5 := Link(raw, n4, cs[4]);
    assert MultiMethodChain(raw, c) == Link(raw, n5, cs[5]);
    SixLinks(raw, cs);
  }

  /** `req.body.encodingMethod || 'unknown'`: an absent or empty hint reads
      as `'unknown'`, and only the exact value `'latin1'` selects the latin1
      branch. */
  function EncodingMethod(body: Body): (m: string)
    ensures !Truthy(body.encodingMethod) ==> m == "unknown"
    ensures m == "latin1" <==> body.encodingMethod == Some("latin1")
  {
    OrDefault(body.encodingMethod, "unknown")
  }

  /** The name the middleware writes back: the branch chosen by the hint,
      then the declared-name fallback. Without the `latin1` hint it is the
      first candidate that differs from the raw name, or else the declared
      name (which is the raw name when none was sent). */
  function NormalizeName(raw: string, encodingMethod: string, declared: string, c: Codecs): (r: string)
    ensures encodingMethod != "latin1" ==>
              r == match FirstDiffering(raw, Candidates(raw, c)) case Some(v) => v case None => declared
    ensures r == raw ==> declared == raw
  {
    ChainIsFirstDiffering(raw, c);
    var fixed := if encodingMethod == "latin1" then Latin1Branch(raw, c) else MultiMethodChain(raw, c);
    if fixed == raw && declared != raw then declared else fixed
  }

  /** `calculateFileHash(req, res, next)`, with the SHA-256 hex digest given
      as `digest`. Without a file it answers 400 and does not call `next`;
      otherwise it calls `next` with the digest stored and exactly the file's
      name replaced. */
  function CalculateFileHash(req: Request, c: Codecs, digest: seq<byte> -> string): (o: Outcome)
    ensures req.file.None? <==> o.Respond?
    ensures o.Respond? ==> o.response == Failure(400)
    ensures o.Next? ==> o.request.fileHash == Some(digest(req.file.value.buffer))
    ensures o.Next? ==> o.request.body == req.body && o.request.file.Some?
    ensures o.Next? ==> o.request.file.value.(originalname := req.file.value.originalname) == req.file.value
    ensures o.Next? ==>
              o.request.file.value.originalname
              == NormalizeName(req.file.value.originalname, EncodingMethod(req.body),
                               OrDefault(req.body.originalFilename, req.file.value.originalname), c)
  {
    match req.file
    case None => Respond(Failure(400))
    case Some(file) =>
      var hash := digest(file.buffer);
      var declared := OrDefault(req.body.originalFilename, file.originalname);
      var name := NormalizeName(file.originalname, EncodingMethod(req.body), declared, c);
      Next(req.(file := Some(file.(originalname := name)), fileHash := Some(hash)))
  }

  /** With the `latin1` hint the name is the latin1→utf8 reinterpretation;
      URL decoding and binary→utf8 are consulted, in that order, only when
      that reinterpretation throws. An unchanged result gives way to the
      declared name. */
  lemma Latin1HintOutcome(raw: string, declared: string, c: Codecs)
    ensures NormalizeName(raw, "latin1", declared, c)
         == var fixed := match c.latin1ToUtf8(raw)
                         case Some(v) => v
                         case None => FirstDiffering(raw, [c.decodeUri(raw), c.binaryToUtf8(raw)]).GetOr(raw);
            if fixed == raw then declared else fixed
  {
    var cs := [c.decodeUri(raw), c.binaryToUtf8(raw)];
    assert cs[0..] == cs;
    FirstDifferingStep(raw, cs, 0);
    FirstDifferingStep(raw, cs, 1);
    FirstDifferingStep(raw, cs, 2);
  }

  /** The hex decoder is never consulted for a name that is not all hex
      digits: replacing it changes nothing. */
  lemma HexDecoderGuarded(raw: string, encodingMethod: string, declared: string, c: Codecs, hex: string -> Option<string>)
    requires !IsHexName(raw)
    ensures NormalizeName(raw, encodingMethod, declared, c.(hexToUtf8 := hex)) == NormalizeName(raw, encodingMethod, declared, c)
  {
  }

  /** The base64 decoder is never consulted for a name outside the base64
      pattern: replacing it changes nothing. */
  lemma Base64DecoderGuarded(raw: string, encodingMethod: string, declared: string, c: Codecs, b64: string -> Option<string>)
    requires !IsBase64Name(raw)
    ensures NormalizeName(raw, encodingMethod, declared, c.(base64ToUtf8 := b64)) == NormalizeName(raw, encodingMethod, declared, c)
  {
  }

  /** Without a declared name (or with one equal to the raw name) a name no
      decoder changes stays the raw name; with a different declared name it
      becomes that name. */
  lemma DeclaredNameFallback(raw: string, encodingMethod: string, declared: string, c: Codecs)
    requires encodingMethod != "latin1"
    requires forall i :: 0 <= i < 6 ==> Unchanged(Candidates(raw, c)[i], raw)
    ensures NormalizeName(raw, encodingMethod, declared, c) == declared
  {
    assert |Candidates(raw, c)| == 6;
  }
}

=== FILE: wrappers.dfy ===
/** The two failure-carrying shapes the model needs: an optional value and a
    value-or-error. */
module Wrappers {

  /** Some value, or nothing (JavaScript's null / a call that threw). */
  datatype Option<+T> = None | Some(value: T) {

    /** The carried value, or `default` when there is none. */
    function GetOr(default: T): T {
      match this
      case Some(v) => v
      case None => default
    }
  }

  /** A value, or the reason it could not be produced. */
  datatype Result<+T, +E> = Ok(value: T) | Err(error: E)
}
